=== FILE: README.md ===
# Quick-list playlists in Dafny

A model of Quick-list's YouTube playlist client, together with proofs about it.
The client keeps named playlists of YouTube videos. Two React shells hold the
playlists in component state:

- `src/App.tsx`, the home screen with an add-video form and a playlist page;
- `frontend/src/App.tsx`, a dashboard with a sidebar, a search box and an
  add-video dialog.

A reducer (`frontend/src/contexts/AppReducer.js`) serves the backend-connected
variant. A Python helper (`backend/utils/youtube.py`) turns YouTube's ISO 8601
durations into clock text.

The model takes the source's own form:

- The list updaters that both shells hand to `setPlaylists` are pure
  functions over `seq<Playlist>` (module `PlaylistStore`).
- Each shell is a `class` whose methods update its fields. Each such method
  states its new state in terms of those functions.
- The reducer, URL extraction, duration parsing and formatting, and the
  rendering decisions of the sidebar and the playlist grid are functions.
  Lemmas relate them.
- Step-by-step code stays imperative:
  - `extractYouTubeVideoId`'s loop over its two expressions;
  - `_parse_duration`'s early returns;
  - the sidebar's in-place sort, as an insertion sort on an `array`;
  - the add-video forms, as classes that call their shell's methods.

The model follows the code rather than the prose description in these places:

- The dashboard's `deletePlaylist` sets the view to `'home'`, which is not one
  of its declared views. On that view the title is empty.
- `isPlayerMode` is only ever set to `false`, so the sidebar's `collapsed`
  prop is the user's toggle.
- An empty id string counts as no id, as JavaScript truthiness has it.

## Model

| member | source | states |
|---|---|---|
| PlaylistStore.AddVideo | src/App.tsx:27-33 | the video is appended to every playlist with that id, which is stamped `now` and keeps its name and creation time; every other playlist and the order of ids are unchanged |
| PlaylistStore.Create | src/App.tsx:35-45 | exactly one playlist is appended: empty, with the given name, the fresh id and both stamps `now`; the old list is a prefix; the returned id is the new playlist's |
| PlaylistStore.Delete | src/App.tsx:47-48 | a playlist survives exactly when its id differs; the id no longer occurs; an unknown id leaves the list as it was |
| PlaylistStore.Rename | src/App.tsx:55-61 | the matching playlists get the new name, taken unchecked, and the stamp `now`; nothing else changes |
| PlaylistStore.WithoutVideo | src/App.tsx:66 | a video survives exactly when its id differs from the removed id |
| PlaylistStore.DeleteAppend | src/App.tsx:48 | the surviving playlists keep their order: deleting from `a + b` is deleting from `a` followed by deleting from `b` |
| PlaylistStore.DeleteCount | src/App.tsx:48 | each surviving playlist occurs as often as before, each deleted one not at all |
| PlaylistStore.WithoutVideoAppend | src/App.tsx:66 | the surviving videos keep their order: removing from `a + b` is removing from `a` followed by removing from `b` |
| PlaylistStore.WithoutVideoCount | src/App.tsx:66 | each surviving video occurs as often as before, each removed one not at all |
| PlaylistStore.RemoveVideo | src/App.tsx:63-69 | the matching playlist loses its videos with that id and is stamped even if none matched; nothing else changes |
| PlaylistStore.Reorder | src/App.tsx:71-77 | the matching playlist's videos are replaced wholesale, unchecked, and it is stamped; nothing else changes |
| PlaylistStore.Selected | src/App.tsx:89 | `find` gives the first playlist with the selected id; there is none for a null selection or an unknown id |
| PlaylistStore.RemoveVideoTwice | src/App.tsx:63-69 | removing a video twice is the same as one removal at the later time |
| PlaylistStore.DeleteUnselects | src/App.tsx:47-53 | after a delete, the deleted id selects nothing |
| PlaylistStore.CreateKeepsUniqueIds | src/App.tsx:35-45 | creating with an id not yet in use keeps ids pairwise distinct (the source never checks this) |
| PlaylistStore.DeleteKeepsUniqueIds | src/App.tsx:47-48 | deleting keeps ids pairwise distinct |
| PlaylistStore.StoreKeepsStampsOrdered | src/App.tsx:27-77 | with a clock that does not run backwards, every updater keeps `createdAt <= updatedAt <= now` |
| HomeApp.App.constructor | src/App.tsx:10-12 | no playlists, the home view, no selection |
| HomeApp.App.AddVideoToPlaylist | src/App.tsx:27-33 | the list becomes `PlaylistStore.AddVideo` of the old one; the view and selection are unchanged; the page/selection invariant is kept |
| HomeApp.App.CreatePlaylist | src/App.tsx:35-45 | the list and the returned id are `PlaylistStore.Create`'s |
| HomeApp.App.DeletePlaylist | src/App.tsx:47-53 | the list is `PlaylistStore.Delete`'s; deleting the selected playlist returns home and clears the selection; otherwise the view is kept; a screen that was showing something still does |
| HomeApp.App.RenamePlaylist | src/App.tsx:55-61 | the list is `PlaylistStore.Rename`'s; the view is unchanged |
| HomeApp.App.RemoveVideoFromPlaylist | src/App.tsx:63-69 | the list is `PlaylistStore.RemoveVideo`'s; the view is unchanged |
| HomeApp.App.ReorderVideos | src/App.tsx:71-77 | the list is `PlaylistStore.Reorder`'s; the view is unchanged |
| HomeApp.App.OpenPlaylist | src/App.tsx:79-82 | the playlist page with that selection, even for an unknown id |
| HomeApp.App.GoHome | src/App.tsx:84-87 | the home view with no selection |
| HomeApp.App.SelectedPlaylist | src/App.tsx:89 | a playlist of the list carrying the selected id; none exactly when nothing is selected or the id is unknown |
| HomeApp.App.Main | src/App.tsx:100-121 | home shows the home screen; the playlist page shows the selected playlist, or nothing when the id is unknown |
| DashboardApp.Search | frontend/src/App.tsx:95-97 | a playlist is kept exactly when its lower-cased name contains the lower-cased query; an empty query keeps the whole list |
| DashboardApp.SearchAppend | frontend/src/App.tsx:95-97 | searching preserves order: the search of a concatenation is the concatenation of the searches |
| DashboardApp.SearchIgnoresQueryCase | frontend/src/App.tsx:95-97 | a query and its lower-cased form find the same playlists |
| DashboardApp.App.constructor | frontend/src/App.tsx:10-16 | no playlists, the dashboard, no selection, sidebar open, dialog closed, empty query, no player mode |
| DashboardApp.App.AddVideoToPlaylist | frontend/src/App.tsx:31-37 | the list is `PlaylistStore.AddVideo`'s; every other field is unchanged |
| DashboardApp.App.CreatePlaylist | frontend/src/App.tsx:39-49 | the list and the returned id are `PlaylistStore.Create`'s; every other field is unchanged |
| DashboardApp.App.DeletePlaylist | frontend/src/App.tsx:51-57 | the list is `PlaylistStore.Delete`'s; deleting the selected playlist switches to the undeclared `'home'` view and clears the selection |
| DashboardApp.App.RenamePlaylist | frontend/src/App.tsx:59-65 | the list is `PlaylistStore.Rename`'s; every other field is unchanged |
| DashboardApp.App.RemoveVideoFromPlaylist | frontend/src/App.tsx:67-73 | the list is `PlaylistStore.RemoveVideo`'s; every other field is unchanged |
| DashboardApp.App.ReorderVideos | frontend/src/App.tsx:75-81 | the list is `PlaylistStore.Reorder`'s; every other field is unchanged |
| DashboardApp.App.OpenPlaylist | frontend/src/App.tsx:83-87 | the playlist page with that selection and player mode off |
| DashboardApp.App.GoHome | frontend/src/App.tsx:89-93 | the dashboard, no selection, player mode off |
| DashboardApp.App.ToggleSidebar | frontend/src/App.tsx:108 | the collapsed flag flips |
| DashboardApp.App.SetSearchQuery | frontend/src/App.tsx:134 | the query becomes the typed text |
| DashboardApp.App.SetShowAddModal | frontend/src/App.tsx:165-171 | the dialog flag is set; nothing else changes |
| DashboardApp.App.FilteredPlaylists | frontend/src/App.tsx:95-97 | the shown list holds exactly the playlists whose name matches the query; all of them for an empty query |
| DashboardApp.App.SelectedPlaylist | frontend/src/App.tsx:99 | a playlist carrying the selected id; none exactly when nothing is selected or the id is unknown |
| DashboardApp.App.SidebarCollapsed | frontend/src/App.tsx:107 | the sidebar is collapsed when the toggle or player mode says so; under the invariant, exactly when the toggle does |
| DashboardApp.App.Title | frontend/src/App.tsx:121-123 | "Dashboard" on the dashboard; elsewhere the selected playlist's name, and nothing when there is none |
| DashboardApp.DeleteSelectedLeavesNoTitle | frontend/src/App.tsx:51-57 | deleting the selected playlist leaves a view other than the dashboard with no title |
| AppReducer.AppendVideo | frontend/src/contexts/AppReducer.js:42-51 | the video is appended to every playlist with the payload's id, without touching `updatedAt`; nothing else changes |
| AppReducer.Reduce | frontend/src/contexts/AppReducer.js:17-56 | loading is raised only by SET_LOADING and lowered by every other recognised action; SET_LOADING clears the error; API_REQUEST_FAILED sets it; `currentVideo` is never touched; the effect of each action on the list, PLAYLIST_DELETED being the store's order-keeping delete and VIDEO_ADDED appending the video to every playlist with that id; an unknown action returns the state itself |
| AppReducer.CurrentVideoStaysNull | frontend/src/contexts/AppReducer.js:1-56 | from the initial state, `currentVideo` stays null whatever is dispatched |
| AppReducer.CurrentVideoKept | frontend/src/contexts/AppReducer.js:17-56 | no run of dispatches changes `currentVideo` |
| AppReducer.LoadingTracksLastAction | frontend/src/contexts/AppReducer.js:17-56 | after a run of dispatches, loading is on exactly when the last recognised action was SET_LOADING |
| AppReducer.VideoAddedAgreesWithStore | frontend/src/contexts/AppReducer.js:42-51 | VIDEO_ADDED does what the shells' `addVideoToPlaylist` does, except that it keeps `updatedAt` |
| AppReducer.ReduceKeepsUniqueIds | frontend/src/contexts/AppReducer.js:28-51 | deletes and video additions keep ids distinct; an addition keeps them distinct when its id is new |
| IsoDuration.Zfill2 | backend/utils/youtube.py:76 | `zfill(2)`: a longer string is unchanged; digits are left-padded with zeros; a lone sign gets its zero after the sign, any other lone character its zero before it; the empty string becomes `00` |
| IsoDuration.ParseDuration | backend/utils/youtube.py:64-83 | the imperative parse equals the reference `Clock`, including `None` where the unpacking of a split raises |
| IsoDuration.PrefixIgnored | backend/utils/youtube.py:67 | the first two characters never affect the result |
| IsoDuration.HoursStep | backend/utils/youtube.py:74-76 | an hours component splits off as its padded field, and an absent one gives `00` |
| IsoDuration.MinutesStep | backend/utils/youtube.py:77-79 | the minutes component splits off the same way, leaving the seconds part |
| IsoDuration.SecondsStep | backend/utils/youtube.py:80-81 | the seconds part with its `S` removed gives the padded seconds, and an absent one gives `00` |
| IsoDuration.ClockOfEncoded | backend/utils/youtube.py:64-83 | every `PTnHnMnS` text with digit components parses to those components, each padded to two digits and `00` when absent |
| IsoDuration.ExampleFull | backend/utils/youtube.py:64-83 | `PT1H2M3S` gives `01:02:03` |
| IsoDuration.ExampleMinutesOnly | backend/utils/youtube.py:64-83 | `PT5M` gives `00:05:00` |
| IsoDuration.TwoHoursRejected | backend/utils/youtube.py:74-76 | two `H` designators make the unpacking raise |
| Playback.VideoEnd | src/components/PlaylistView.tsx:22-28 | at the end of a video, play moves to the next one unless it was the last, in which case playing stops and the index stays |
| Playback.PlayerVideo | src/components/PlaylistView.tsx:82-87 | the player shows a video exactly when playing and the index is in range, and it shows the video at the index |
| Playback.PlayAllRunsThrough | src/components/PlaylistView.tsx:22-33 | "Play All" then `k` video ends plays video `k`; after the last video it stops on the last one |
| Playback.PlayerShowsHighlighted | src/components/PlaylistView.tsx:119-123 | the highlighted row is exactly the one the player shows |
| Playback.NoWraparound | src/components/PlaylistView.tsx:22-28 | playback never wraps back to an earlier video, and it stops by the end |
| Playback.PlaylistView.constructor | src/components/PlaylistView.tsx:19-20 | index 0, not playing |
| Playback.PlaylistView.HandleVideoEnd | src/components/PlaylistView.tsx:22-28 | the new cursor is `VideoEnd` of the old one |
| Playback.PlaylistView.PlayVideo | src/components/PlaylistView.tsx:30-33 | playing, at the given index |
| Playback.PlaylistView.ShufflePlaylist | src/components/PlaylistView.tsx:47-51 | the list handed to `onReorderVideos` is a permutation of the videos, the given order applied; the index goes back to 0 |
| Playback.PlaylistView.ClosePlayer | src/components/PlaylistView.tsx:86 | playing stops and the index is kept |
| Playback.JsRem | src/components/PlaylistView.tsx:38-39 | JavaScript's `%`: the ordinary remainder for a non-negative dividend; for a negative one the remainder on the dividend's side of zero, 0 when `b` divides it and otherwise the Euclidean remainder minus `b`, so in (-b, 0] |
| Playback.FormatDuration | src/components/PlaylistView.tsx:35-45 | for every integer `parseInt` can return, negative ones included, the text has three colon-separated fields exactly from 3600 on and two below |
| Playback.NegativeDuration | src/components/PlaylistView.tsx:37-39 | for a negative count the floored hours are at most -1, so they are never shown, and the minutes and seconds carry the count's sign |
| Playback.NegativeFiveSeconds | src/components/PlaylistView.tsx:35-45 | `-5` renders as `-1:-5` |
| Playback.NegativeHour | src/components/PlaylistView.tsx:35-45 | `-3600` renders as `0:00` |
| Playback.PaddedField | src/components/PlaylistView.tsx:42 | a number below 60 padded to two characters is two digits with that value |
| Playback.ClockArithmetic | src/components/PlaylistView.tsx:36-39 | minutes and seconds are below 60, hours·3600 + minutes·60 + seconds is the input, and hours are positive exactly from 3600 on |
| Playback.FormatDurationFields | src/components/PlaylistView.tsx:35-45 | for a non-negative count, the fields are the hours as they are (when at least one hour) and the minutes and seconds in two digits |
| Playback.FormatDurationRoundTrip | src/components/PlaylistView.tsx:35-45 | for a non-negative count, reading the formatted text back as a clock gives the number of seconds |
| YouTubeUrl.MarkerSearch | src/utils/youtube.ts:3 | the first expression fails exactly when no marker is followed by an id character; otherwise it captures the maximal run after the leftmost such marker |
| YouTubeUrl.LastKey | src/utils/youtube.ts:4 | the greedy `.*` picks the last `v=` followed by an id character on the same line |
| YouTubeUrl.QuerySearch | src/utils/youtube.ts:4 | the second expression fails exactly when no `youtube.com/watch?` has such a key on its line; otherwise it captures the run after the last such key of the leftmost match |
| YouTubeUrl.MarkerResultShape | src/utils/youtube.ts:3 | the first expression's capture is a non-empty maximal run free of `&`, `?`, `#` and newline |
| YouTubeUrl.QueryResultShape | src/utils/youtube.ts:4 | the second expression's capture is such a run too |
| YouTubeUrl.Extracted | src/utils/youtube.ts:1-15 | no id exactly when neither expression matches; any id is a capture of the URL |
| YouTubeUrl.ExtractVideoId | src/utils/youtube.ts:1-15 | the loop over the two expressions returns the first one's capture when it matches, else the second's |
| YouTubeUrl.MarkerLinkId | src/utils/youtube.ts:3 | `youtube.com/watch?v=ID`, `youtu.be/ID` and `youtube.com/embed/ID` yield `ID` up to the first `&`, `?`, `#` or newline |
| YouTubeUrl.ThumbnailRoundTrip | src/utils/youtube.ts:22 | the video id can be read back from the thumbnail URL built from it |
| YouTubeUrl.FetchVideoInfo | src/utils/youtube.ts:17-32 | the placeholder record: the title is `Video ` + the first eight characters of the id + `...`, the thumbnail URL, and duration `"0"` |
| YouTubeUrl.TitleIgnoresTail | src/utils/youtube.ts:28 | ids that agree on their first eight characters get the same title, but different thumbnails |
| Sidebar.InsertAt | frontend/src/components/Sidebar.tsx:27 | one insertion step extends the newest-first prefix by one element, permuting the array and leaving the rest alone |
| Sidebar.SortNewestFirst | frontend/src/components/Sidebar.tsx:26-27 | the array is sorted in place, newest update first, and holds the same playlists |
| Sidebar.Take | frontend/src/components/Sidebar.tsx:28 | `slice(0, k)` is the prefix of length min(k, n) |
| Sidebar.Recent | frontend/src/components/Sidebar.tsx:26-28 | the first min(5, n) playlists of the sorted list, in its order; over a sorted list they are newest first, and no later playlist is newer |
| Sidebar.CategoryCounts | frontend/src/components/Sidebar.tsx:30-33 | "All" counts every playlist; "Recent" counts min(5, n) |
| Sidebar.Visible | frontend/src/components/Sidebar.tsx:118 | the first five playlists when collapsed, ten otherwise |
| Sidebar.Highlighted | frontend/src/components/Sidebar.tsx:123 | a row is highlighted exactly when its id is the selected id; HighlightedIsSelected ties this to the shell's `selectedPlaylist` |
| Sidebar.HighlightedIsSelected | frontend/src/components/Sidebar.tsx:123 | with distinct ids, a row is highlighted exactly when it is the playlist the shell's `find` selects, and then no other row is highlighted |
| Sidebar.Render | frontend/src/components/Sidebar.tsx:26-33 | one render sorts the given array in place and returns the recent list, the counts and the listed rows over the sorted order |
| PlaylistGrid.RenameRequest | frontend/src/components/PlaylistGrid.tsx:26-32 | a rename is asked for exactly when a non-empty id is being edited and the name is not blank, and then with the trimmed name |
| PlaylistGrid.RequestedNameIsTrimmed | frontend/src/components/PlaylistGrid.tsx:27-28 | a requested name is non-empty, has no whitespace at either end, and trims to itself |
| PlaylistGrid.BlankNameNeverRenames | frontend/src/components/PlaylistGrid.tsx:27 | a name made only of whitespace never leads to a rename |
| PlaylistGrid.SaveUnchangedName | frontend/src/components/PlaylistGrid.tsx:21-32 | opening the editor and saving at once renames to the trimmed current name, which for an already trimmed name is that name |
| PlaylistGrid.Grid.constructor | frontend/src/components/PlaylistGrid.tsx:18-19 | nothing is being edited: no card shows the input |
| PlaylistGrid.Grid.StartEditing | frontend/src/components/PlaylistGrid.tsx:21-24 | that card is edited, starting from its name: exactly the cards with its id show the input |
| PlaylistGrid.Grid.SetEditName | frontend/src/components/PlaylistGrid.tsx:108 | typing changes the name and keeps the card: the same cards show the input |
| PlaylistGrid.Grid.SaveEdit | frontend/src/components/PlaylistGrid.tsx:26-32 | the rename returned is `RenameRequest` of the state before; the editor is closed either way, so no card shows the input |
| PlaylistGrid.Grid.CancelEdit | frontend/src/components/PlaylistGrid.tsx:34-37 | the editor is closed: no card shows the input |
| PlaylistGrid.Grid.IsEditing | frontend/src/components/PlaylistGrid.tsx:104 | a card shows the input exactly when it is the one being edited; the constructor, StartEditing, SetEditName, SaveEdit and CancelEdit state which cards that is after each event |
| PlaylistGrid.CardThumbnail | frontend/src/components/PlaylistGrid.tsx:73-76 | the first video's thumbnail, and the placeholder exactly for an empty playlist |
| PlaylistGrid.Latest | frontend/src/components/PlaylistGrid.tsx:151-155 | the last video's title, and no line exactly for an empty playlist |
| PlaylistGrid.LatestAfterAdd | frontend/src/components/PlaylistGrid.tsx:151-155 | after a video is added, the card's latest title is that video's, and a non-empty playlist keeps its thumbnail |
| PlaylistGrid.CountLabel | frontend/src/components/PlaylistGrid.tsx:62 | the number, then "playlist", plural for every count but one |
| AddVideoFlow.NameToCreate | src/components/AddVideoSection.tsx:39-40 | a playlist is to be created exactly in create mode with a non-blank name, and with the trimmed name |
| AddVideoFlow.NewVideo | src/components/AddVideoSection.tsx:54-61 | the record has the extracted id, no duration, the placeholder title and a thumbnail that names the id |
| AddVideoFlow.EnterUrlOnlyForBlank | src/components/AddVideoSection.tsx:25-28 | "Please enter a YouTube video URL" is the outcome exactly when the URL is blank; no later check gives it |
| AddVideoFlow.Submit | src/components/AddVideoSection.tsx:24-71 | a blank URL, then an unparsable one, is refused with its message and changes nothing; a playlist is created exactly when the URL passed and a name was typed; an added video carries the URL's id and goes to the created playlist or else the selected one, never to an empty id; a rejected fetch adds nothing |
| AddVideoFlow.SubmitIsCreateThenAdd | src/components/AddVideoSection.tsx:36-63 | the list afterwards is the optional creation followed by the optional `addVideoToPlaylist`; a refusal adds no video |
| AddVideoFlow.AddedVideoComesFromUrl | src/components/AddVideoSection.tsx:30-61 | an added video's id is a capture of the URL, and its thumbnail names that id |
| AddVideoFlow.NewPlaylistGetsTheVideo | src/components/AddVideoSection.tsx:39-63 | creating while adding puts the video into the new playlist only, which then holds exactly that video |
| AddVideoFlow.SelectedPlaylistGetsTheVideo | src/components/AddVideoModal.tsx:49-74 | without a name to create, the selected playlist gains the video at the end and the others are unchanged |
| AddVideoFlow.NothingChosenRefused | src/components/AddVideoSection.tsx:45-48 | with nothing selected and no name, a valid URL is refused with "Please select or create a playlist" and nothing changes |
| AddVideoFlow.FailedFetchKeepsCreatedPlaylist | src/components/AddVideoSection.tsx:39-67 | a rejected fetch does not undo the playlist just created, which stays empty |
| AddVideoSection.Form.constructor | src/components/AddVideoSection.tsx:17-22 | every field is empty, not creating, not loading |
| AddVideoSection.Form.SetVideoUrl | src/components/AddVideoSection.tsx:102 | the URL field changes and nothing else |
| AddVideoSection.Form.SelectPlaylist | src/components/AddVideoSection.tsx:118-121 | picking a playlist leaves create mode |
| AddVideoSection.Form.StartCreating | src/components/AddVideoSection.tsx:150-153 | create mode, with the selection cleared |
| AddVideoSection.Form.SetNewPlaylistName | src/components/AddVideoSection.tsx:142 | the name field changes and nothing else |
| AddVideoSection.Form.CanSubmit | src/components/AddVideoSection.tsx:173 | the button is enabled exactly when not loading and the URL is not blank; EnabledButtonPassesUrlCheck ties this to the submission |
| AddVideoSection.EnabledButtonPassesUrlCheck | src/components/AddVideoSection.tsx:173 | the button is enabled exactly when nothing is loading and submitting the form would not ask for a URL |
| AddVideoSection.Form.HandleAddVideo | src/components/AddVideoSection.tsx:24-71 | the shell's list becomes `Submit`'s; a refusal shows its message; a creation leaves create mode and clears the name; an addition clears the URL and the selection; no create mode with a selection, and no loading, between events |
| AddVideoSection.Form.CreateAndAdd | src/components/AddVideoSection.tsx:36-71 | after the URL checks: the typed playlist is created and the mode left, then a missing id is refused, a rejected fetch shows its message, and otherwise the video goes to that id and the URL and selection are cleared |
| AddVideoSection.Form.FetchAndAdd | src/components/AddVideoSection.tsx:50-70 | with a fetch that succeeds, adds the video and clears the URL and selection; with one that rejects, shows the failure; loading ends either way |
| AddVideoSection.Form.HandleKeyPress | src/components/AddVideoSection.tsx:73-77 | Enter submits; any other key changes nothing |
| AddVideoSection.BlankNameRefused | src/components/AddVideoSection.tsx:39-48 | in this form, create mode with a blank name is always refused, since the mode cleared the selection |
| AddVideoModal.Form.constructor | src/components/AddVideoModal.tsx:19-24 | every field is empty, not creating, not loading |
| AddVideoModal.Form.SetVideoUrl | src/components/AddVideoModal.tsx:123 | the URL field changes and nothing else |
| AddVideoModal.Form.SelectPlaylist | src/components/AddVideoModal.tsx:141 | the selection changes and nothing else |
| AddVideoModal.Form.StartCreating | src/components/AddVideoModal.tsx:153 | create mode, keeping the selection |
| AddVideoModal.Form.CancelCreating | src/components/AddVideoModal.tsx:171-174 | leaves create mode and forgets the typed name |
| AddVideoModal.Form.SetNewPlaylistName | src/components/AddVideoModal.tsx:165 | the name field changes and nothing else |
| AddVideoModal.Form.HandleAddVideo | src/components/AddVideoModal.tsx:37-81 | the shell's list becomes `Submit`'s; a refusal shows its message and keeps the dialog open; an addition closes it; the form's fields are never reset |
| AddVideoModal.Form.FetchAndAdd | src/components/AddVideoModal.tsx:61-80 | with a fetch that succeeds, adds the video and closes the dialog; with one that rejects, shows the failure and stays open; loading ends either way |
| AddVideoModal.Form.HandleKeyPress | src/components/AddVideoModal.tsx:83-87 | Enter submits; any other key changes nothing |
| AddVideoModal.Form.CanSubmit | src/components/AddVideoModal.tsx:201 | the dialog's add button is enabled exactly when not loading and the URL is not blank; EnabledButtonPassesUrlCheck ties this to the submission |
| AddVideoModal.EnabledButtonPassesUrlCheck | src/components/AddVideoModal.tsx:201 | the dialog's add button is enabled exactly when nothing is loading and submitting the dialog would not ask for a URL |
| AddVideoModal.Form.HandleEscape | src/components/AddVideoModal.tsx:26-35 | Escape closes the dialog; other keys change nothing |
| AddVideoModal.BlankNameUsesEarlierSelection | src/components/AddVideoModal.tsx:49-54 | in the dialog, a selection made before switching to create mode is used when the name is left blank |
| Text.TrimSlice | src/components/AddVideoSection.tsx:25 | `trim()` removes a whitespace prefix and suffix and leaves no whitespace at either end |
| Text.TrimEmpty | src/components/AddVideoSection.tsx:25 | a string trims to empty exactly when every character is whitespace |
| Text.TrimIdempotent | frontend/src/components/PlaylistGrid.tsx:27-28 | trimming twice is trimming once |
| Text.Includes | frontend/src/App.tsx:96 | `includes` holds exactly when the needle occurs at some position |
| Text.IntToString | src/components/PlaylistView.tsx:42 | `toString()` of an integer: the decimal digits, after a minus sign for a negative number, and never a colon |
| Text.NatToStringRoundTrip | src/components/PlaylistView.tsx:42 | the decimal text of a number reads back as that number |
| Text.Split | backend/utils/youtube.py:75 | `split` gives at least one piece, no piece contains the separator, and a string without the separator is its only piece |
| Text.JoinSplit | backend/utils/youtube.py:75 | joining the pieces of a split with the separator gives back the string |
| Text.SplitJoin | backend/utils/youtube.py:75 | splitting the join of separator-free pieces gives back the pieces |
| Text.SplitCons | backend/utils/youtube.py:75 | splitting `a + sep + b`, where `a` has no separator, gives `a` followed by the pieces of `b` |

## Left out

- Persistence: the shells' `localStorage` load and save effects are not modelled, and a shell starts with no playlists.
- Network and backend: the Django views, the YouTube Data API calls of `backend/utils/youtube.py` other than `_parse_duration`, and the axios client are not part of this model. The exceptions `get_video_details` catches are modelled as `None` from `_parse_duration`.
- Clock and ids: `new Date()` and `Date.now().toString()` are the parameters `now`, `freshId`, `freshPlaylistId` and `freshVideoId`. Timestamps are instants (`nat`), not ISO strings. One submission of an add-video form uses one `now` for all of its stamps.
- Time between events: the awaited 500 ms delay in `fetchVideoInfo` is not modelled. Each handler runs to completion, so `loading` is only on inside a handler, and React's batching and stale closures do not arise.
- AddVideoFlow.Submit: the fetch's rejection is the parameter `fetchFails`. The placeholder `fetchVideoInfo` never rejects, so with it the "Failed to fetch video information" path is unreachable.
- Shuffle: `sort(() => Math.random() - 0.5)` is modelled as an arbitrary permutation, given as the parameter `order`. Its distribution is not modelled.
- Playback.FormatDuration: it is modelled on the integer `parseInt` produces, negative ones included. Text that `parseInt` cannot read gives `NaN`, which renders as `NaN:NaN`, and that case is left out. The source's numbers are IEEE doubles and the model's are exact integers: beyond 2^53 seconds `parseInt`, `Math.floor(num / 3600)` and `%` lose precision (`1e20` seconds shows 27777777777777776 hours, the model 27777777777777777), and from 1e21 hours `toString` switches to exponent notation, so FormatDurationFields and FormatDurationRoundTrip describe the source only up to 2^53 seconds.
- Text.Lower: `toLowerCase` is modelled for ASCII letters only. Full Unicode case mapping is left out, and so are UTF-16 code units (strings are sequences of characters).
- YouTubeUrl: the regular-expression engine is replaced by explicit scans that state the two expressions' leftmost, greedy semantics.
- Sidebar.SortNewestFirst: the engine's sort algorithm is replaced by an insertion sort. Its insertion step (InsertAt) moves a playlist only past strictly older ones, so equal stamps keep their original order, as the stable `Array.prototype.sort` that ECMAScript 2019 requires does; that stability is not stated as a contract.
- Sidebar.Render: the array it sorts is the dashboard shell's own state array. The shell is modelled on a `seq`, so that aliasing, and the reordering it causes in the shell, are not captured.
- AppReducer.Reduce: payloads reuse the `Playlist` and `Video` records, and an error payload is taken to be a string.
- `frontend/src/components/AddVideoModal.tsx`, the dialog file that the dashboard shell imports, is not part of this model. The dialog is modelled from `src/components/AddVideoModal.tsx` and wired to the dashboard shell.
- Presentation: JSX layout, icons, CSS classes, date formatting (`toLocaleDateString`), the empty-state screens and `Header` are not modelled.
- PlaylistGrid.Grid.CancelEdit: it is defined in the component but no element calls it. It is modelled as defined.

=== FILE: add_video_flow.dfy ===
/**
  The add-video flow that both forms run on submit (`handleAddVideo` in
  `src/components/AddVideoSection.tsx` and `src/components/AddVideoModal.tsx`):
  refuse a blank URL, refuse a URL no expression extracts an id from, create
  the playlist being typed if there is a name, refuse when there is still no
  playlist id, and otherwise fetch the placeholder record and add the video.
  The clock and both id sources are the parameters `now`, `freshPlaylistId`
  and `freshVideoId`; whether the awaited fetch rejects is the parameter
  `fetchFails` (the placeholder fetch of `src/utils/youtube.ts` never does).
 */
module AddVideoFlow {
  import opened Wrappers
  import opened Types
  import Text
  import PlaylistStore
  import YouTubeUrl

  const EnterUrlMessage := "Please enter a YouTube video URL"
  const InvalidUrlMessage := "Invalid YouTube URL"
  const ChoosePlaylistMessage := "Please select or create a playlist"
  const FetchFailedMessage := "Failed to fetch video information"

  /** How a submission ends: refused with a message, or a video added to a playlist. */
  datatype Outcome = Refused(message: string) | Added(playlistId: string, video: Video)

  /** The list of playlists afterwards, how the submission ended, and whether a playlist was created. */
  datatype Submission = Submission(playlists: seq<Playlist>, outcome: Outcome, created: bool)

  /** The name of the playlist to create: only when creating and the trimmed name is not blank. */
  function NameToCreate(creating: bool, newName: string): (r: Option<string>)
    ensures r.Some? <==> creating && Text.Trim(newName) != []
    ensures r.Some? ==> r.value == Text.Trim(newName) && r.value != [] && Text.Trim(r.value) == r.value
  {
    Text.TrimIdempotent(newName);
    if creating && Text.Trim(newName) != [] then Some(Text.Trim(newName)) else None
  }

  /** The video record built from the fetched placeholder: no duration, added at `now`. */
  function NewVideo(freshVideoId: string, videoId: string, now: Timestamp): (v: Video)
    ensures v.id == freshVideoId && v.videoId == videoId && v.addedAt == now && v.duration == None
    ensures YouTubeUrl.ThumbnailId(v.thumbnail) == Some(videoId)
    ensures v.title == YouTubeUrl.FetchVideoInfo(videoId).title
  {
    var info := YouTubeUrl.FetchVideoInfo(videoId);
    YouTubeUrl.ThumbnailRoundTrip(videoId);
    Video(freshVideoId, info.title, info.thumbnail, videoId, None, now)
  }

  /** The list after the optional `onCreatePlaylist` call, and the playlist id to add to. */
  function Target(playlists: seq<Playlist>, selectedId: string, name: Option<string>, freshPlaylistId: string, now: Timestamp): (seq<Playlist>, string) {
    if name.Some? then PlaylistStore.Create(playlists, name.value, freshPlaylistId, now) else (playlists, selectedId)
  }

  /** One submission of the form over the current list of playlists. */
  function Submit(playlists: seq<Playlist>, url: string, selectedId: string, creating: bool, newName: string,
                  freshPlaylistId: string, freshVideoId: string, fetchFails: bool, now: Timestamp): (r: Submission)
    // the two URL checks come first and change nothing
    ensures Text.Trim(url) == [] ==> r == Submission(playlists, Refused(EnterUrlMessage), false)
    ensures Text.Trim(url) != [] && YouTubeUrl.Extracted(url).None? ==>
              r == Submission(playlists, Refused(InvalidUrlMessage), false)
    // a playlist is created exactly when the URL passed and a name was typed
    ensures r.created <==> Text.Trim(url) != [] && YouTubeUrl.Extracted(url).Some? && NameToCreate(creating, newName).Some?
    // a rejected fetch adds nothing
    ensures fetchFails ==> r.outcome.Refused?
    // an added video is the one the URL names, into the created or the selected playlist
    ensures r.outcome.Added? ==>
              && Text.Trim(url) != []
              && YouTubeUrl.Extracted(url) == Some(r.outcome.video.videoId)
              && r.outcome.playlistId == (if r.created then freshPlaylistId else selectedId)
              && r.outcome.playlistId != []
              && r.outcome.video == NewVideo(freshVideoId, r.outcome.video.videoId, now)
  {
    var videoId := YouTubeUrl.Extracted(url);
    if Text.Trim(url) == [] then Submission(playlists, Refused(EnterUrlMessage), false)
    else if videoId.None? then Submission(playlists, Refused(InvalidUrlMessage), false)
    else
      var name := NameToCreate(creating, newName);
      var before := Target(playlists, selectedId, name, freshPlaylistId, now);
      if before.1 == [] then Submission(before.0, Refused(ChoosePlaylistMessage), name.Some?)
      else if fetchFails then Submission(before.0, Refused(FetchFailedMessage), name.Some?)
      else
        var v := NewVideo(freshVideoId, videoId.value, now);
        Submission(PlaylistStore.AddVideo(before.0, v, before.1, now), Added(before.1, v), name.Some?)
  }

  /** "Please enter a YouTube video URL" is shown exactly for a blank URL; no later check gives it. */
  lemma EnterUrlOnlyForBlank(playlists: seq<Playlist>, url: string, selectedId: string, creating: bool, newName: string,
                             freshPlaylistId: string, freshVideoId: string, fetchFails: bool, now: Timestamp)
    ensures (Submit(playlists, url, selectedId, creating, newName, freshPlaylistId, freshVideoId, fetchFails, now).outcome
               == Refused(EnterUrlMessage))
            <==> Text.Trim(url) == []
  {
    assert EnterUrlMessage != InvalidUrlMessage && EnterUrlMessage != ChoosePlaylistMessage
           && EnterUrlMessage != FetchFailedMessage by {
      assert EnterUrlMessage[0] == 'P' && InvalidUrlMessage[0] == 'I' && FetchFailedMessage[0] == 'F';
      assert EnterUrlMessage[7] == 'e' && ChoosePlaylistMessage[7] == 's';
    }
  }

  /**
    The list of playlists afterwards: the created playlist, if any, is
    appended, and the video, if added, is added with the store's
    `addVideoToPlaylist`; a refusal adds no video.
   */
  lemma SubmitIsCreateThenAdd(playlists: seq<Playlist>, url: string, selectedId: string, creating: bool, newName: string,
                              freshPlaylistId: string, freshVideoId: string, fetchFails: bool, now: Timestamp)
    ensures var r := Submit(playlists, url, selectedId, creating, newName, freshPlaylistId, freshVideoId, fetchFails, now);
            var before := if r.created then PlaylistStore.Create(playlists, NameToCreate(creating, newName).value, freshPlaylistId, now).0 else playlists;
            && (r.created ==> |before| == |playlists| + 1 && before[..|playlists|] == playlists
                              && before[|playlists|] == Playlist(freshPlaylistId, Text.Trim(newName), [], now, now))
            && (r.outcome.Refused? ==> r.playlists == before)
            && (r.outcome.Added? ==> r.playlists == PlaylistStore.AddVideo(before, r.outcome.video, r.outcome.playlistId, now))
  {
  }

  /** An added video's id is a capture of the URL, and its thumbnail names that id. */
  lemma AddedVideoComesFromUrl(playlists: seq<Playlist>, url: string, selectedId: string, creating: bool, newName: string,
                               freshPlaylistId: string, freshVideoId: string, fetchFails: bool, now: Timestamp)
    requires Submit(playlists, url, selectedId, creating, newName, freshPlaylistId, freshVideoId, fetchFails, now).outcome.Added?
    ensures var v := Submit(playlists, url, selectedId, creating, newName, freshPlaylistId, freshVideoId, fetchFails, now).outcome.video;
            YouTubeUrl.IsCapture(url, v.videoId) && YouTubeUrl.ThumbnailId(v.thumbnail) == Some(v.videoId)
  {
  }

  /**
    Creating a playlist while adding puts the video into the new playlist, and
    only there, when the fresh id is new: the new playlist holds exactly that
    video and every earlier playlist is unchanged.
   */
  lemma NewPlaylistGetsTheVideo(playlists: seq<Playlist>, url: string, selectedId: string, newName: string,
                                freshPlaylistId: string, freshVideoId: string, fetchFails: bool, now: Timestamp)
    requires Text.Trim(url) != [] && YouTubeUrl.Extracted(url).Some? && Text.Trim(newName) != []
    requires freshPlaylistId != [] && freshPlaylistId !in Ids(playlists) && !fetchFails
    ensures var r := Submit(playlists, url, selectedId, true, newName, freshPlaylistId, freshVideoId, fetchFails, now);
            var v := NewVideo(freshVideoId, YouTubeUrl.Extracted(url).value, now);
            && r.outcome == Added(freshPlaylistId, v)
            && r.playlists == playlists + [Playlist(freshPlaylistId, Text.Trim(newName), [v], now, now)]
  {
    var name := Text.Trim(newName);
    var v := NewVideo(freshVideoId, YouTubeUrl.Extracted(url).value, now);
    var created := PlaylistStore.Create(playlists, name, freshPlaylistId, now).0;
    var r := PlaylistStore.AddVideo(created, v, freshPlaylistId, now);
    var expected := playlists + [Playlist(freshPlaylistId, name, [v], now, now)];
    forall i | 0 <= i < |playlists| ensures r[i] == expected[i] {
      assert Ids(playlists)[i] == playlists[i].id;
      assert created[i] == playlists[i];
    }
    assert r[|playlists|] == expected[|playlists|];
  }

  /**
    Without a name to create, the video goes to the selected playlist: the one
    with that id gains it at the end, the others are unchanged. In the modal a
    selection made before switching to "create" is still used this way when
    the name is left blank.
   */
  lemma SelectedPlaylistGetsTheVideo(playlists: seq<Playlist>, url: string, selectedId: string, creating: bool, newName: string,
                                     freshPlaylistId: string, freshVideoId: string, fetchFails: bool, now: Timestamp)
    requires Text.Trim(url) != [] && YouTubeUrl.Extracted(url).Some? && selectedId != [] && !fetchFails
    requires !creating || Text.Trim(newName) == []
    ensures var r := Submit(playlists, url, selectedId, creating, newName, freshPlaylistId, freshVideoId, fetchFails, now);
            var v := NewVideo(freshVideoId, YouTubeUrl.Extracted(url).value, now);
            && r.outcome == Added(selectedId, v)
            && !r.created
            && PlaylistStore.OnlyTouches(playlists, r.playlists, selectedId)
            && forall i :: 0 <= i < |playlists| && playlists[i].id == selectedId ==>
                 r.playlists[i].videos == playlists[i].videos + [v] && r.playlists[i].updatedAt == now
  {
  }

  /** With nothing selected and no name typed, a valid URL is refused and nothing changes. */
  lemma NothingChosenRefused(playlists: seq<Playlist>, url: string, creating: bool, newName: string,
                             freshPlaylistId: string, freshVideoId: string, fetchFails: bool, now: Timestamp)
    requires Text.Trim(url) != [] && YouTubeUrl.Extracted(url).Some?
    requires !creating || Text.Trim(newName) == []
    ensures Submit(playlists, url, [], creating, newName, freshPlaylistId, freshVideoId, fetchFails, now)
            == Submission(playlists, Refused(ChoosePlaylistMessage), false)
  {
  }

  /**
    A rejected fetch adds no video but does not undo the playlist created
    just before it: that playlist stays, empty, at the end of the list.
   */
  lemma FailedFetchKeepsCreatedPlaylist(playlists: seq<Playlist>, url: string, selectedId: string, newName: string,
                                        freshPlaylistId: string, freshVideoId: string, now: Timestamp)
    requires Text.Trim(url) != [] && YouTubeUrl.Extracted(url).Some? && Text.Trim(newName) != [] && freshPlaylistId != []
    ensures var r := Submit(playlists, url, selectedId, true, newName, freshPlaylistId, freshVideoId, true, now);
            && r.outcome == Refused(FetchFailedMessage)
            && r.created
            && r.playlists == playlists + [Playlist(freshPlaylistId, Text.Trim(newName), [], now, now)]
  {
  }
}

=== FILE: add_video_modal.dfy ===
/**
  The add-video dialog (`src/components/AddVideoModal.tsx`), wired to the
  dashboard shell of `frontend/src/App.tsx`, which opens it and passes its
  `createPlaylist`, `addVideoToPlaylist` and `setShowAddModal(false)`. It runs
  the same flow as the home screen's form, but keeps its fields after
  creating a playlist, does not clear the selection when switching to
  "create", and closes itself after adding or on Escape.
 */
module AddVideoModal {
  import opened Wrappers
  import opened Types
  import Text
  import YouTubeUrl
  import PlaylistStore
  import DashboardApp
  import AddVideoFlow

  class Form {
    var videoUrl: string
    var selectedPlaylistId: string
    var newPlaylistName: string
    var isCreatingPlaylist: bool
    var loading: bool
    var error: string

    /** Between events nothing is loading. */
    ghost predicate Valid()
      reads this
    {
      !loading
    }

    constructor ()
      ensures Valid()
      ensures videoUrl == [] && selectedPlaylistId == [] && newPlaylistName == []
      ensures !isCreatingPlaylist && !loading && error == []
    {
      videoUrl := [];
      selectedPlaylistId := [];
      newPlaylistName := [];
      isCreatingPlaylist := false;
      loading := false;
      error := [];
    }

    /** Typing into the URL field. */
    method SetVideoUrl(url: string)
      requires Valid()
      modifies this
      ensures Valid()
      ensures videoUrl == url
      ensures selectedPlaylistId == old(selectedPlaylistId) && newPlaylistName == old(newPlaylistName)
      ensures isCreatingPlaylist == old(isCreatingPlaylist) && error == old(error)
    {
      videoUrl := url;
    }

    /** Picking an existing playlist; the picker is only shown outside "create" mode. */
    method SelectPlaylist(id: string)
      requires Valid()
      modifies this
      ensures Valid()
      ensures selectedPlaylistId == id
      ensures videoUrl == old(videoUrl) && newPlaylistName == old(newPlaylistName)
      ensures isCreatingPlaylist == old(isCreatingPlaylist) && error == old(error)
    {
      selectedPlaylistId := id;
    }

    /** "Create New Playlist": enter the mode, keeping whatever was selected. */
    method StartCreating()
      requires Valid()
      modifies this
      ensures Valid()
      ensures isCreatingPlaylist
      ensures videoUrl == old(videoUrl) && selectedPlaylistId == old(selectedPlaylistId)
      ensures newPlaylistName == old(newPlaylistName) && error == old(error)
    {
      isCreatingPlaylist := true;
    }

    /** "Cancel - Choose existing playlist": leave the mode and forget the typed name. */
    method CancelCreating()
      requires Valid()
      modifies this
      ensures Valid()
      ensures !isCreatingPlaylist && newPlaylistName == []
      ensures videoUrl == old(videoUrl) && selectedPlaylistId == old(selectedPlaylistId) && error == old(error)
    {
      isCreatingPlaylist := false;
      newPlaylistName := [];
    }

    /** Typing into the new playlist's name field. */
    method SetNewPlaylistName(name: string)
      requires Valid()
      modifies this
      ensures Valid()
      ensures newPlaylistName == name
      ensures videoUrl == old(videoUrl) && selectedPlaylistId == old(selectedPlaylistId)
      ensures isCreatingPlaylist == old(isCreatingPlaylist) && error == old(error)
    {
      newPlaylistName := name;
    }

    /**
      `handleAddVideo`, with the fetch finished before it returns. The shell's
      list of playlists becomes what the flow computes; a refusal shows its
      message and keeps the dialog open, an added video closes it. The form's
      own fields are never reset.
     */
    method HandleAddVideo(app: DashboardApp.App, freshPlaylistId: string, freshVideoId: string, fetchFails: bool, now: Timestamp)
      requires Valid() && app.Valid()
      modifies this, app
      ensures Valid() && app.Valid()
      ensures var r := AddVideoFlow.Submit(old(app.playlists), old(videoUrl), old(selectedPlaylistId),
                                           old(isCreatingPlaylist), old(newPlaylistName),
                                           freshPlaylistId, freshVideoId, fetchFails, now);
              && app.playlists == r.playlists
              && (r.outcome.Refused? ==> error == r.outcome.message && app.showAddModal == old(app.showAddModal))
              && (r.outcome.Added? ==> error == [] && !app.showAddModal)
      ensures videoUrl == old(videoUrl) && selectedPlaylistId == old(selectedPlaylistId)
      ensures newPlaylistName == old(newPlaylistName) && isCreatingPlaylist == old(isCreatingPlaylist)
      ensures app.currentView == old(app.currentView) && app.selectedPlaylistId == old(app.selectedPlaylistId)
    {
      ghost var r := AddVideoFlow.Submit(app.playlists, videoUrl, selectedPlaylistId, isCreatingPlaylist,
                                         newPlaylistName, freshPlaylistId, freshVideoId, fetchFails, now);
      if Text.Trim(videoUrl) == [] {
        error := AddVideoFlow.EnterUrlMessage;
        assert r.outcome.Refused?;
        return;
      }
      var videoId := YouTubeUrl.ExtractVideoId(videoUrl);
      if videoId.None? {
        error := AddVideoFlow.InvalidUrlMessage;
        assert r.outcome.Refused?;
        return;
      }
      ghost var name := AddVideoFlow.NameToCreate(isCreatingPlaylist, newPlaylistName);
      ghost var before := AddVideoFlow.Target(app.playlists, selectedPlaylistId, name, freshPlaylistId, now);
      var playlistId := selectedPlaylistId;
      if isCreatingPlaylist && Text.Trim(newPlaylistName) != [] {
        playlistId := app.CreatePlaylist(Text.Trim(newPlaylistName), freshPlaylistId, now);
      }
      assert (app.playlists, playlistId) == before;
      if playlistId == [] {
        error := AddVideoFlow.ChoosePlaylistMessage;
        assert r.outcome == AddVideoFlow.Refused(AddVideoFlow.ChoosePlaylistMessage) && r.playlists == app.playlists;
        return;
      }
      FetchAndAdd(app, videoId.value, playlistId, freshVideoId, fetchFails, now);
      assert r.playlists == app.playlists;
    }

    /**
      From `setLoading(true)` on: build the record from the fetched placeholder,
      add the video and close the dialog, or show the failure; either way
      loading ends.
     */
    method FetchAndAdd(app: DashboardApp.App, videoId: string, playlistId: string, freshVideoId: string, fetchFails: bool, now: Timestamp)
      requires app.Valid()
      modifies this, app
      ensures app.Valid() && !loading
      ensures app.playlists == if fetchFails then old(app.playlists)
                               else PlaylistStore.AddVideo(old(app.playlists), AddVideoFlow.NewVideo(freshVideoId, videoId, now), playlistId, now)
      ensures app.currentView == old(app.currentView) && app.selectedPlaylistId == old(app.selectedPlaylistId)
      ensures fetchFails ==> error == AddVideoFlow.FetchFailedMessage && app.showAddModal == old(app.showAddModal)
      ensures !fetchFails ==> error == [] && !app.showAddModal
      ensures videoUrl == old(videoUrl) && selectedPlaylistId == old(selectedPlaylistId)
      ensures newPlaylistName == old(newPlaylistName) && isCreatingPlaylist == old(isCreatingPlaylist)
    {
      loading := true;
      error := [];
      if fetchFails {
        error := AddVideoFlow.FetchFailedMessage;
      } else {
        var info := YouTubeUrl.FetchVideoInfo(videoId);
        var video := Video(freshVideoId, info.title, info.thumbnail, videoId, None, now);
        app.AddVideoToPlaylist(video, playlistId, now);
        app.SetShowAddModal(false);
      }
      loading := false;
    }

    /** Enter in either field submits, unless a submission is loading. */
    method HandleKeyPress(key: string, app: DashboardApp.App, freshPlaylistId: string, freshVideoId: string, fetchFails: bool, now: Timestamp)
      requires Valid() && app.Valid()
      modifies this, app
      ensures Valid() && app.Valid()
      ensures key != "Enter" ==> unchanged(this) && unchanged(app)
      ensures key == "Enter" ==>
                app.playlists == AddVideoFlow.Submit(old(app.playlists), old(videoUrl), old(selectedPlaylistId),
                                                     old(isCreatingPlaylist), old(newPlaylistName),
                                                     freshPlaylistId, freshVideoId, fetchFails, now).playlists
    {
      if key == "Enter" && !loading {
        HandleAddVideo(app, freshPlaylistId, freshVideoId, fetchFails, now);
      }
    }

    /** Whether the dialog's add button is enabled. */
    function CanSubmit(): (b: bool)
      reads this
      ensures b <==> !loading && Text.Trim(videoUrl) != []
    {
      !loading && Text.Trim(videoUrl) != []
    }

    /** The document-wide key listener: Escape closes the dialog, other keys do nothing. */
    method HandleEscape(key: string, app: DashboardApp.App)
      requires app.Valid()
      modifies app
      ensures app.Valid()
      ensures key == "Escape" ==> !app.showAddModal
      ensures key != "Escape" ==> unchanged(app)
      ensures app.playlists == old(app.playlists)
    {
      if key == "Escape" {
        app.SetShowAddModal(false);
      }
    }
  }

  /**
    In this dialog a selection made before switching to "create" survives: with
    the name left blank, the video goes to that earlier selection.
   */
  lemma BlankNameUsesEarlierSelection(playlists: seq<Playlist>, url: string, selectedId: string, newName: string,
                                      freshPlaylistId: string, freshVideoId: string, fetchFails: bool, now: Timestamp)
    requires Text.Trim(url) != [] && YouTubeUrl.Extracted(url).Some? && selectedId != [] && Text.Trim(newName) == []
    requires !fetchFails
    ensures var r := AddVideoFlow.Submit(playlists, url, selectedId, true, newName, freshPlaylistId, freshVideoId, fetchFails, now);
            r.outcome.Added? && r.outcome.playlistId == selectedId && !r.created
  {
    AddVideoFlow.SelectedPlaylistGetsTheVideo(playlists, url, selectedId, true, newName, freshPlaylistId, freshVideoId, fetchFails, now);
  }

  /**
    The add button is enabled exactly when nothing is loading and submitting
    the form as it stands would get past the blank-URL check: a click never
    produces "Please enter a YouTube video URL" (only Enter can).
   */
  lemma EnabledButtonPassesUrlCheck(f: Form, playlists: seq<Playlist>, freshPlaylistId: string, freshVideoId: string,
                                    fetchFails: bool, now: Timestamp)
    ensures f.CanSubmit() <==>
              && !f.loading
              && AddVideoFlow.Submit(playlists, f.videoUrl, f.selectedPlaylistId, f.isCreatingPlaylist, f.newPlaylistName,
                                     freshPlaylistId, freshVideoId, fetchFails, now).outcome
                 != AddVideoFlow.Refused(AddVideoFlow.EnterUrlMessage)
  {
    AddVideoFlow.EnterUrlOnlyForBlank(playlists, f.videoUrl, f.selectedPlaylistId, f.isCreatingPlaylist, f.newPlaylistName,
                                      freshPlaylistId, freshVideoId, fetchFails, now);
  }
}

=== FILE: add_video_section.dfy ===
/**
  The home screen's add-video form (`src/components/AddVideoSection.tsx`): a
  URL field, a playlist picker, and a "New Playlist" mode with a name field.
  Its parent is the shell of `src/App.tsx`, whose `createPlaylist` and
  `addVideoToPlaylist` it calls.
 */
module AddVideoSection {
  import opened Wrappers
  import opened Types
  import Text
  import YouTubeUrl
  import HomeApp
  import PlaylistStore
  import AddVideoFlow

  class Form {
    var videoUrl: string
    var selectedPlaylistId: string
    var newPlaylistName: string
    var isCreatingPlaylist: bool
    var loading: bool
    var error: string

    /**
      Between events nothing is loading, and in "New Playlist" mode no existing
      playlist is selected: the button that enters the mode clears the
      selection, and the picker, which leaves it, is disabled while in it.
     */
    ghost predicate Valid()
      reads this
    {
      && !loading
      && (isCreatingPlaylist ==> selectedPlaylistId == [])
    }

    constructor ()
      ensures Valid()
      ensures videoUrl == [] && selectedPlaylistId == [] && newPlaylistName == []
      ensures !isCreatingPlaylist && !loading && error == []
    {
      videoUrl := [];
      selectedPlaylistId := [];
      newPlaylistName := [];
      isCreatingPlaylist := false;
      loading := false;
      error := [];
    }

    /** Typing into the URL field. */
    method SetVideoUrl(url: string)
      requires Valid()
      modifies this
      ensures Valid()
      ensures videoUrl == url
      ensures selectedPlaylistId == old(selectedPlaylistId) && newPlaylistName == old(newPlaylistName)
      ensures isCreatingPlaylist == old(isCreatingPlaylist) && error == old(error)
    {
      videoUrl := url;
    }

    /** Picking an existing playlist (or the empty choice) leaves "New Playlist" mode. */
    method SelectPlaylist(id: string)
      requires Valid()
      modifies this
      ensures Valid()
      ensures selectedPlaylistId == id && !isCreatingPlaylist
      ensures videoUrl == old(videoUrl) && newPlaylistName == old(newPlaylistName) && error == old(error)
    {
      selectedPlaylistId := id;
      isCreatingPlaylist := false;
    }

    /** The "New Playlist" button: enter the mode and clear the selection. */
    method StartCreating()
      requires Valid()
      modifies this
      ensures Valid()
      ensures isCreatingPlaylist && selectedPlaylistId == []
      ensures videoUrl == old(videoUrl) && newPlaylistName == old(newPlaylistName) && error == old(error)
    {
      isCreatingPlaylist := true;
      selectedPlaylistId := [];
    }

    /** Typing into the new playlist's name field. */
    method SetNewPlaylistName(name: string)
      requires Valid()
      modifies this
      ensures Valid()
      ensures newPlaylistName == name
      ensures videoUrl == old(videoUrl) && selectedPlaylistId == old(selectedPlaylistId)
      ensures isCreatingPlaylist == old(isCreatingPlaylist) && error == old(error)
    {
      newPlaylistName := name;
    }

    /** Whether the add button is enabled. */
    function CanSubmit(): (b: bool)
      reads this
      ensures b <==> !loading && Text.Trim(videoUrl) != []
    {
      !loading && Text.Trim(videoUrl) != []
    }

    /**
      `handleAddVideo`, with the fetch finished before it returns. The shell's
      list of playlists becomes what the flow computes; the form shows the
      refusal's message, leaves "New Playlist" mode once it has created the
      playlist, and clears the URL and the selection after adding.
     */
    method HandleAddVideo(app: HomeApp.App, freshPlaylistId: string, freshVideoId: string, fetchFails: bool, now: Timestamp)
      requires Valid() && app.Valid()
      modifies this, app
      ensures Valid() && app.Valid()
      ensures var r := AddVideoFlow.Submit(old(app.playlists), old(videoUrl), old(selectedPlaylistId),
                                           old(isCreatingPlaylist), old(newPlaylistName),
                                           freshPlaylistId, freshVideoId, fetchFails, now);
              && app.playlists == r.playlists
              && (r.outcome.Refused? ==> error == r.outcome.message
                                         && videoUrl == old(videoUrl) && selectedPlaylistId == old(selectedPlaylistId))
              && (r.outcome.Added? ==> error == [] && videoUrl == [] && selectedPlaylistId == [])
              && (r.created ==> newPlaylistName == [] && !isCreatingPlaylist)
              && (!r.created ==> newPlaylistName == old(newPlaylistName) && isCreatingPlaylist == old(isCreatingPlaylist))
      ensures app.currentView == old(app.currentView) && app.selectedPlaylistId == old(app.selectedPlaylistId)
    {
      ghost var r := AddVideoFlow.Submit(app.playlists, videoUrl, selectedPlaylistId, isCreatingPlaylist,
                                         newPlaylistName, freshPlaylistId, freshVideoId, fetchFails, now);
      if Text.Trim(videoUrl) == [] {
        error := AddVideoFlow.EnterUrlMessage;
        assert !r.created && r.outcome.Refused?;
        return;
      }
      var videoId := YouTubeUrl.ExtractVideoId(videoUrl);
      if videoId.None? {
        error := AddVideoFlow.InvalidUrlMessage;
        assert !r.created && r.outcome.Refused?;
        return;
      }
      CreateAndAdd(app, videoId.value, freshPlaylistId, freshVideoId, fetchFails, now);
    }

    /**
      The rest of `handleAddVideo` once the URL has passed both checks: create
      the playlist being typed, if any, then refuse when there is no playlist
      id, or fetch and add.
     */
    method CreateAndAdd(app: HomeApp.App, videoId: string, freshPlaylistId: string, freshVideoId: string, fetchFails: bool, now: Timestamp)
      requires Valid() && app.Valid()
      modifies this, app
      ensures Valid() && app.Valid()
      ensures var name := AddVideoFlow.NameToCreate(old(isCreatingPlaylist), old(newPlaylistName));
              var before := AddVideoFlow.Target(old(app.playlists), old(selectedPlaylistId), name, freshPlaylistId, now);
              && app.playlists == (if before.1 == [] || fetchFails then before.0
                                   else PlaylistStore.AddVideo(before.0, AddVideoFlow.NewVideo(freshVideoId, videoId, now), before.1, now))
              && (before.1 == [] ==> error == AddVideoFlow.ChoosePlaylistMessage)
              && (before.1 != [] && fetchFails ==> error == AddVideoFlow.FetchFailedMessage)
              && (before.1 == [] || fetchFails ==> videoUrl == old(videoUrl) && selectedPlaylistId == old(selectedPlaylistId))
              && (before.1 != [] && !fetchFails ==> error == [] && videoUrl == [] && selectedPlaylistId == [])
              && (name.Some? ==> newPlaylistName == [] && !isCreatingPlaylist)
              && (name.None? ==> newPlaylistName == old(newPlaylistName) && isCreatingPlaylist == old(isCreatingPlaylist))
      ensures app.currentView == old(app.currentView) && app.selectedPlaylistId == old(app.selectedPlaylistId)
    {
      ghost var name := AddVideoFlow.NameToCreate(isCreatingPlaylist, newPlaylistName);
      ghost var before := AddVideoFlow.Target(app.playlists, selectedPlaylistId, name, freshPlaylistId, now);
      var playlistId := selectedPlaylistId;
      if isCreatingPlaylist && Text.Trim(newPlaylistName) != [] {
        playlistId := app.CreatePlaylist(Text.Trim(newPlaylistName), freshPlaylistId, now);
        newPlaylistName := [];
        isCreatingPlaylist := false;
      }
      assert (app.playlists, playlistId) == before;
      if playlistId == [] {
        error := AddVideoFlow.ChoosePlaylistMessage;
        return;
      }
      FetchAndAdd(app, videoId, playlistId, freshVideoId, fetchFails, now);
    }

    /**
      From `setLoading(true)` on: build the record from the fetched placeholder,
      add the video and clear the URL and the selection, or show the failure;
      either way loading ends.
     */
    method FetchAndAdd(app: HomeApp.App, videoId: string, playlistId: string, freshVideoId: string, fetchFails: bool, now: Timestamp)
      requires app.Valid()
      modifies this, app
      ensures app.Valid() && !loading
      ensures app.playlists == if fetchFails then old(app.playlists)
                               else PlaylistStore.AddVideo(old(app.playlists), AddVideoFlow.NewVideo(freshVideoId, videoId, now), playlistId, now)
      ensures app.currentView == old(app.currentView) && app.selectedPlaylistId == old(app.selectedPlaylistId)
      ensures fetchFails ==> error == AddVideoFlow.FetchFailedMessage && videoUrl == old(videoUrl) && selectedPlaylistId == old(selectedPlaylistId)
      ensures !fetchFails ==> error == [] && videoUrl == [] && selectedPlaylistId == []
      ensures newPlaylistName == old(newPlaylistName) && isCreatingPlaylist == old(isCreatingPlaylist)
    {
      loading := true;
      error := [];
      if fetchFails {
        error := AddVideoFlow.FetchFailedMessage;
      } else {
        var info := YouTubeUrl.FetchVideoInfo(videoId);
        var video := Video(freshVideoId, info.title, info.thumbnail, videoId, None, now);
        app.AddVideoToPlaylist(video, playlistId, now);
        videoUrl := [];
        selectedPlaylistId := [];
      }
      loading := false;
    }

    /** Enter in either field submits, unless a submission is loading. */
    method HandleKeyPress(key: string, app: HomeApp.App, freshPlaylistId: string, freshVideoId: string, fetchFails: bool, now: Timestamp)
      requires Valid() && app.Valid()
      modifies this, app
      ensures Valid() && app.Valid()
      ensures key != "Enter" ==> unchanged(this) && app.playlists == old(app.playlists)
      ensures key == "Enter" ==>
                app.playlists == AddVideoFlow.Submit(old(app.playlists), old(videoUrl), old(selectedPlaylistId),
                                                     old(isCreatingPlaylist), old(newPlaylistName),
                                                     freshPlaylistId, freshVideoId, fetchFails, now).playlists
    {
      if key == "Enter" && !loading {
        HandleAddVideo(app, freshPlaylistId, freshVideoId, fetchFails, now);
      }
    }
  }

  /**
    In this form a blank name in "New Playlist" mode is always refused: the
    mode has cleared the selection, so no playlist is created and there is
    nothing to add to.
   */
  lemma BlankNameRefused(playlists: seq<Playlist>, url: string, newName: string,
                         freshPlaylistId: string, freshVideoId: string, fetchFails: bool, now: Timestamp)
    requires Text.Trim(url) != [] && YouTubeUrl.Extracted(url).Some? && Text.Trim(newName) == []
    ensures AddVideoFlow.Submit(playlists, url, [], true, newName, freshPlaylistId, freshVideoId, fetchFails, now)
            == AddVideoFlow.Submission(playlists, AddVideoFlow.Refused(AddVideoFlow.ChoosePlaylistMessage), false)
  {
    AddVideoFlow.NothingChosenRefused(playlists, url, true, newName, freshPlaylistId, freshVideoId, fetchFails, now);
  }

  /**
    The add button is enabled exactly when nothing is loading and submitting
    the form as it stands would get past the blank-URL check: a click never
    produces "Please enter a YouTube video URL" (only Enter can).
   */
  lemma EnabledButtonPassesUrlCheck(f: Form, playlists: seq<Playlist>, freshPlaylistId: string, freshVideoId: string,
                                    fetchFails: bool, now: Timestamp)
    ensures f.CanSubmit() <==>
              && !f.loading
              && AddVideoFlow.Submit(playlists, f.videoUrl, f.selectedPlaylistId, f.isCreatingPlaylist, f.newPlaylistName,
                                     freshPlaylistId, freshVideoId, fetchFails, now).outcome
                 != AddVideoFlow.Refused(AddVideoFlow.EnterUrlMessage)
  {
    AddVideoFlow.EnterUrlOnlyForBlank(playlists, f.videoUrl, f.selectedPlaylistId, f.isCreatingPlaylist, f.newPlaylistName,
                                      freshPlaylistId, freshVideoId, fetchFails, now);
  }
}

=== FILE: app_reducer.dfy ===
/**
  The backend-connected client's state reducer (`frontend/src/contexts/AppReducer.js`):
  a pure function from a state and an action to the next state. Six action
  types are recognised; any other action leaves the state as it is.
 */
module AppReducer {
  import opened Wrappers
  import opened Types
  import PlaylistStore
  import Seqs

  datatype AppState = AppState(
    playlists: seq<Playlist>,
    currentVideo: Option<Video>,
    loading: bool,
    error: Option<string>)

  /** The six `ActionTypes` with their payloads, and any other action. */
  datatype Action =
    | SetLoading
    | ApiRequestFailed(message: string)
    | PlaylistsLoaded(loaded: seq<Playlist>)
    | PlaylistAdded(added: Playlist)
    | PlaylistDeleted(id: string)
    | VideoAdded(playlistId: string, video: Video)
    | Unrecognised

  /** `initialState`. */
  const Initial := AppState([], None, false, None)

  /** The list after `VIDEO_ADDED`: the video appended to every matching playlist, nothing else touched. */
  function AppendVideo(ps: seq<Playlist>, playlistId: string, video: Video): (r: seq<Playlist>)
    ensures PlaylistStore.OnlyTouches(ps, r, playlistId)
    ensures forall i :: 0 <= i < |ps| && ps[i].id == playlistId ==>
              r[i] == ps[i].(videos := ps[i].videos + [video])
  {
    Seqs.MapWhere(ps, (p: Playlist) => p.id == playlistId, (p: Playlist) => p.(videos := p.videos + [video]))
  }

  /** `reducer(state, action)`. */
  function Reduce(s: AppState, a: Action): (r: AppState)
    // only SET_LOADING raises the flag; every other recognised action lowers it
    ensures r.loading <==> a.SetLoading? || (a.Unrecognised? && s.loading)
    // no action touches the current video
    ensures r.currentVideo == s.currentVideo
    // the error is cleared by SET_LOADING, set by API_REQUEST_FAILED and otherwise kept
    ensures r.error == match a
                       case SetLoading => None
                       case ApiRequestFailed(m) => Some(m)
                       case _ => s.error
    ensures a.SetLoading? || a.ApiRequestFailed? || a.Unrecognised? ==> r.playlists == s.playlists
    ensures a.PlaylistsLoaded? ==> r.playlists == a.loaded
    ensures a.PlaylistAdded? ==> |r.playlists| == |s.playlists| + 1 && r.playlists[..|s.playlists|] == s.playlists
                                 && r.playlists[|s.playlists|] == a.added
    ensures a.PlaylistDeleted? ==> r.playlists == PlaylistStore.Delete(s.playlists, a.id)
                                   && (forall p :: p in r.playlists <==> p in s.playlists && p.id != a.id)
                                   && a.id !in Ids(r.playlists)
    ensures a.VideoAdded? ==> r.playlists == AppendVideo(s.playlists, a.playlistId, a.video)
                              && Ids(r.playlists) == Ids(s.playlists)
    ensures a.Unrecognised? ==> r == s
  {
    match a
    case SetLoading => s.(loading := true, error := None)
    case ApiRequestFailed(m) => s.(loading := false, error := Some(m))
    case PlaylistsLoaded(ps) => s.(loading := false, playlists := ps)
    case PlaylistAdded(p) => s.(loading := false, playlists := s.playlists + [p])
    case PlaylistDeleted(id) => s.(loading := false, playlists := PlaylistStore.Delete(s.playlists, id))
    case VideoAdded(playlistId, v) => s.(loading := false, playlists := AppendVideo(s.playlists, playlistId, v))
    case Unrecognised => s
  }

  /** The state after dispatching `actions` one after the other. */
  function ReduceAll(s: AppState, actions: seq<Action>): AppState
    decreases |actions|
  {
    if actions == [] then s else ReduceAll(Reduce(s, actions[0]), actions[1..])
  }

  /** `currentVideo` is never set: from the initial state it stays null whatever is dispatched. */
  lemma {:induction false} CurrentVideoStaysNull(actions: seq<Action>)
    ensures ReduceAll(Initial, actions).currentVideo == None
  {
    CurrentVideoKept(Initial, actions);
  }

  lemma {:induction false} CurrentVideoKept(s: AppState, actions: seq<Action>)
    ensures ReduceAll(s, actions).currentVideo == s.currentVideo
    decreases |actions|
  {
    if actions != [] {
      CurrentVideoKept(Reduce(s, actions[0]), actions[1..]);
    }
  }

  /** After a run of dispatches, the loading flag is up exactly when the last recognised action was `SET_LOADING`. */
  lemma {:induction false} LoadingTracksLastAction(s: AppState, actions: seq<Action>)
    ensures ReduceAll(s, actions).loading <==> LastRecognised(s.loading, actions)
    decreases |actions|
  {
    if actions != [] {
      LoadingTracksLastAction(Reduce(s, actions[0]), actions[1..]);
      LastRecognisedStep(s.loading, actions);
    }
  }

  /** Whether the last recognised action in `actions` is `SET_LOADING`; `before` when there is none. */
  function LastRecognised(before: bool, actions: seq<Action>): bool
    decreases |actions|
  {
    if actions == [] then before
    else if actions[|actions| - 1].Unrecognised? then LastRecognised(before, actions[..|actions| - 1])
    else actions[|actions| - 1].SetLoading?
  }

  /** Looking for the last recognised action can start after the first action, once that one has been applied to `before`. */
  lemma {:induction false} LastRecognisedStep(before: bool, actions: seq<Action>)
    requires actions != []
    ensures LastRecognised(before, actions) ==
            LastRecognised(actions[0].SetLoading? || (actions[0].Unrecognised? && before), actions[1..])
    decreases |actions|
  {
    var n := |actions|;
    if n > 1 {
      assert actions[1..][..n - 2] == actions[..n - 1][1..];
      if actions[n - 1].Unrecognised? {
        LastRecognisedStep(before, actions[..n - 1]);
      }
    }
  }

  /** `VIDEO_ADDED` adds the video as the shell's `addVideoToPlaylist` does, except that `updatedAt` keeps its old value. */
  lemma VideoAddedAgreesWithStore(s: AppState, playlistId: string, v: Video, now: Timestamp)
    ensures var r := Reduce(s, VideoAdded(playlistId, v)).playlists;
            var t := PlaylistStore.AddVideo(s.playlists, v, playlistId, now);
            |r| == |t| && forall i :: 0 <= i < |r| ==> r[i] == t[i].(updatedAt := s.playlists[i].updatedAt)
  {
    var r := Reduce(s, VideoAdded(playlistId, v)).playlists;
    var t := PlaylistStore.AddVideo(s.playlists, v, playlistId, now);
    forall i | 0 <= i < |r| ensures r[i] == t[i].(updatedAt := s.playlists[i].updatedAt) {
      if s.playlists[i].id == playlistId {
        assert r[i] == s.playlists[i].(videos := s.playlists[i].videos + [v]);
      } else {
        assert r[i] == s.playlists[i] && t[i] == s.playlists[i];
      }
    }
  }

  /** Deleting and adding videos keep the playlist ids distinct; adding a playlist does so when its id is new. */
  lemma ReduceKeepsUniqueIds(s: AppState, a: Action)
    requires PlaylistStore.UniqueIds(s.playlists)
    requires a.PlaylistsLoaded? ==> PlaylistStore.UniqueIds(a.loaded)
    requires a.PlaylistAdded? ==> a.added.id !in Ids(s.playlists)
    ensures PlaylistStore.UniqueIds(Reduce(s, a).playlists)
  {
    match a
    case PlaylistDeleted(id) => PlaylistStore.DeleteKeepsUniqueIds(s.playlists, id);
    case PlaylistAdded(p) =>
      var r := s.playlists + [p];
      forall i, j | 0 <= i < j < |r| ensures r[i].id != r[j].id {
        if j == |s.playlists| { assert Ids(s.playlists)[i] == r[i].id; }
      }
    case VideoAdded(playlistId, v) =>
      var r := Reduce(s, a).playlists;
      forall i, j | 0 <= i < j < |r| ensures r[i].id != r[j].id {
        assert Ids(r)[i] == Ids(s.playlists)[i] && Ids(r)[j] == Ids(s.playlists)[j];
      }
    case _ =>
  }
}

=== FILE: dashboard_app.dfy ===
/**
  The second application shell (`frontend/src/App.tsx`): the same playlist store,
  plus a search box over playlist names, a collapsible sidebar, an add-video modal
  flag and a player-mode flag. Its page type is declared as
  `'dashboard' | 'playlist'`, yet `deletePlaylist` writes `'home'` into it; the
  model keeps that third value so that the consequence can be stated.
 */
module DashboardApp {
  import opened Wrappers
  import opened Types
  import PlaylistStore
  import Seqs
  import Text

  /** `currentView`: the two declared values and the undeclared `'home'`. */
  datatype View = Dashboard | PlaylistPage | Home

  /** The values the declared type `'dashboard' | 'playlist'` admits. */
  predicate Declared(v: View) {
    v == Dashboard || v == PlaylistPage
  }

  /** The search condition: the lower-cased name contains the lower-cased query. */
  predicate NameMatches(p: Playlist, query: string) {
    Text.Includes(Text.Lower(p.name), Text.Lower(query))
  }

  /** `filteredPlaylists`: the playlists whose name matches the query, in their original order. */
  function Search(ps: seq<Playlist>, query: string): (r: seq<Playlist>)
    ensures forall p :: p in r <==> p in ps && NameMatches(p, query)
    ensures query == [] ==> r == ps
  {
    var r := Seqs.Filter(ps, (p: Playlist) => NameMatches(p, query));
    if query == [] then
      forall i | 0 <= i < |ps| ensures NameMatches(ps[i], query) {
        assert Text.OccursAt(Text.Lower(query), Text.Lower(ps[i].name), 0);
      }
      Seqs.FilterKeepsAll(ps, (p: Playlist) => NameMatches(p, query));
      r
    else r
  }

  /** Searching keeps relative order: the result for a concatenation is the concatenation of the results. */
  lemma SearchAppend(a: seq<Playlist>, b: seq<Playlist>, query: string)
    ensures Search(a + b, query) == Search(a, query) + Search(b, query)
  {
    Seqs.FilterAppend(a, b, (p: Playlist) => NameMatches(p, query));
  }

  /** Lower-casing is idempotent. */
  lemma LowerIdempotent(s: string)
    ensures Text.Lower(Text.Lower(s)) == Text.Lower(s)
  {
  }

  /** The search ignores the case of the query's ASCII letters. */
  lemma SearchIgnoresQueryCase(ps: seq<Playlist>, query: string)
    ensures Search(ps, Text.Lower(query)) == Search(ps, query)
  {
    LowerIdempotent(query);
    Seqs.FilterSameCondition(ps, (p: Playlist) => NameMatches(p, Text.Lower(query)),
                             (p: Playlist) => NameMatches(p, query));
  }

  class App {
    var playlists: seq<Playlist>
    var currentView: View
    var selectedPlaylistId: Option<string>
    var sidebarCollapsed: bool
    var showAddModal: bool
    var searchQuery: string
    var isPlayerMode: bool

    /**
      A playlist page is shown exactly when a playlist is selected, and player mode
      is never switched on (every assignment to it in the shell writes `false`).
     */
    ghost predicate Valid()
      reads this
    {
      && (currentView == PlaylistPage <==> selectedPlaylistId.Some?)
      && !isPlayerMode
    }

    constructor ()
      ensures Valid()
      ensures playlists == [] && currentView == Dashboard && selectedPlaylistId == None
      ensures !sidebarCollapsed && !showAddModal && searchQuery == [] && !isPlayerMode
    {
      playlists := [];
      currentView := Dashboard;
      selectedPlaylistId := None;
      sidebarCollapsed := false;
      showAddModal := false;
      searchQuery := [];
      isPlayerMode := false;
    }

    /** The fields other than the list of playlists are as before. */
    twostate predicate ViewUnchanged()
      reads this
    {
      && currentView == old(currentView) && selectedPlaylistId == old(selectedPlaylistId)
      && sidebarCollapsed == old(sidebarCollapsed) && showAddModal == old(showAddModal)
      && searchQuery == old(searchQuery) && isPlayerMode == old(isPlayerMode)
    }

    method AddVideoToPlaylist(video: Video, playlistId: string, now: Timestamp)
      requires Valid()
      modifies this
      ensures Valid() && ViewUnchanged()
      ensures playlists == PlaylistStore.AddVideo(old(playlists), video, playlistId, now)
    {
      playlists := PlaylistStore.AddVideo(playlists, video, playlistId, now);
    }

    method CreatePlaylist(name: string, freshId: string, now: Timestamp) returns (id: string)
      requires Valid()
      modifies this
      ensures Valid() && ViewUnchanged()
      ensures (playlists, id) == PlaylistStore.Create(old(playlists), name, freshId, now)
    {
      var created := PlaylistStore.Create(playlists, name, freshId, now);
      playlists := created.0;
      id := created.1;
    }

    /** Drops the playlist; if it was the selected one, the page becomes `'home'` and the selection is cleared. */
    method DeletePlaylist(id: string)
      requires Valid()
      modifies this
      ensures Valid()
      ensures playlists == PlaylistStore.Delete(old(playlists), id)
      ensures old(selectedPlaylistId) == Some(id) ==>
                currentView == Home && !Declared(currentView) && selectedPlaylistId == None
      ensures old(selectedPlaylistId) != Some(id) ==>
                currentView == old(currentView) && selectedPlaylistId == old(selectedPlaylistId)
      ensures sidebarCollapsed == old(sidebarCollapsed) && showAddModal == old(showAddModal)
      ensures searchQuery == old(searchQuery) && isPlayerMode == old(isPlayerMode)
    {
      playlists := PlaylistStore.Delete(playlists, id);
      if selectedPlaylistId == Some(id) {
        currentView := Home;
        selectedPlaylistId := None;
      }
    }

    method RenamePlaylist(id: string, newName: string, now: Timestamp)
      requires Valid()
      modifies this
      ensures Valid() && ViewUnchanged()
      ensures playlists == PlaylistStore.Rename(old(playlists), id, newName, now)
    {
      playlists := PlaylistStore.Rename(playlists, id, newName, now);
    }

    method RemoveVideoFromPlaylist(playlistId: string, videoId: string, now: Timestamp)
      requires Valid()
      modifies this
      ensures Valid() && ViewUnchanged()
      ensures playlists == PlaylistStore.RemoveVideo(old(playlists), playlistId, videoId, now)
    {
      playlists := PlaylistStore.RemoveVideo(playlists, playlistId, videoId, now);
    }

    method ReorderVideos(playlistId: string, videos: seq<Video>, now: Timestamp)
      requires Valid()
      modifies this
      ensures Valid() && ViewUnchanged()
      ensures playlists == PlaylistStore.Reorder(old(playlists), playlistId, videos, now)
    {
      playlists := PlaylistStore.Reorder(playlists, playlistId, videos, now);
    }

    method OpenPlaylist(id: string)
      requires Valid()
      modifies this
      ensures Valid()
      ensures selectedPlaylistId == Some(id) && currentView == PlaylistPage && !isPlayerMode
      ensures playlists == old(playlists) && sidebarCollapsed == old(sidebarCollapsed)
      ensures showAddModal == old(showAddModal) && searchQuery == old(searchQuery)
    {
      selectedPlaylistId := Some(id);
      currentView := PlaylistPage;
      isPlayerMode := false;
    }

    method GoHome()
      requires Valid()
      modifies this
      ensures Valid()
      ensures currentView == Dashboard && selectedPlaylistId == None && !isPlayerMode
      ensures playlists == old(playlists) && sidebarCollapsed == old(sidebarCollapsed)
      ensures showAddModal == old(showAddModal) && searchQuery == old(searchQuery)
    {
      currentView := Dashboard;
      selectedPlaylistId := None;
      isPlayerMode := false;
    }

    /** The sidebar's toggle button: flips only the user's collapse preference. */
    method ToggleSidebar()
      requires Valid()
      modifies this
      ensures Valid()
      ensures sidebarCollapsed == !old(sidebarCollapsed)
      ensures playlists == old(playlists) && currentView == old(currentView)
      ensures selectedPlaylistId == old(selectedPlaylistId) && showAddModal == old(showAddModal)
      ensures searchQuery == old(searchQuery) && isPlayerMode == old(isPlayerMode)
    {
      sidebarCollapsed := !sidebarCollapsed;
    }

    /** Typing into the search box. */
    method SetSearchQuery(query: string)
      requires Valid()
      modifies this
      ensures Valid()
      ensures searchQuery == query
      ensures playlists == old(playlists) && currentView == old(currentView)
      ensures selectedPlaylistId == old(selectedPlaylistId) && showAddModal == old(showAddModal)
      ensures sidebarCollapsed == old(sidebarCollapsed) && isPlayerMode == old(isPlayerMode)
    {
      searchQuery := query;
    }

    /** Opening (`true`) or closing (`false`) the add-video modal. */
    method SetShowAddModal(show: bool)
      requires Valid()
      modifies this
      ensures Valid()
      ensures showAddModal == show
      ensures playlists == old(playlists) && currentView == old(currentView)
      ensures selectedPlaylistId == old(selectedPlaylistId) && searchQuery == old(searchQuery)
      ensures sidebarCollapsed == old(sidebarCollapsed) && isPlayerMode == old(isPlayerMode)
    {
      showAddModal := show;
    }

    /** `filteredPlaylists`, the list the main content shows. */
    function FilteredPlaylists(): (r: seq<Playlist>)
      reads this
      ensures forall p :: p in r <==> p in playlists && NameMatches(p, searchQuery)
      ensures searchQuery == [] ==> r == playlists
    {
      Search(playlists, searchQuery)
    }

    /** `selectedPlaylist`: the first playlist carrying the selected id. */
    function SelectedPlaylist(): (r: Option<Playlist>)
      reads this
      ensures r.Some? ==> r.value in playlists && Some(r.value.id) == selectedPlaylistId
      ensures r.None? <==> selectedPlaylistId.None? || selectedPlaylistId.value !in Ids(playlists)
    {
      PlaylistStore.Selected(playlists, selectedPlaylistId)
    }

    /** The `collapsed` prop handed to the sidebar; player mode never being on, it is the user's preference. */
    function SidebarCollapsed(): (b: bool)
      reads this
      ensures b <==> sidebarCollapsed || isPlayerMode
      ensures Valid() ==> (b <==> sidebarCollapsed)
    {
      sidebarCollapsed || isPlayerMode
    }

    /** The page title: "Dashboard" on the dashboard, otherwise the selected playlist's name if there is one. */
    function Title(): (r: Option<string>)
      reads this
      ensures currentView == Dashboard ==> r == Some("Dashboard")
      ensures currentView != Dashboard ==>
                (r.Some? <==> SelectedPlaylist().Some?) && (r.Some? ==> r.value == SelectedPlaylist().value.name)
    {
      if currentView == Dashboard then Some("Dashboard")
      else match SelectedPlaylist()
        case Some(p) => Some(p.name)
        case None => None
    }
  }

  /** Deleting the selected playlist switches to the undeclared `'home'` page, which has no title. */
  method DeleteSelectedLeavesNoTitle(app: App, id: string)
    requires app.Valid() && app.selectedPlaylistId == Some(id)
    modifies app
    ensures app.Title() == None && app.currentView != Dashboard
  {
    app.DeletePlaylist(id);
  }
}

=== FILE: home_app.dfy ===
/**
  The first application shell (`src/App.tsx`): the list of playlists, which page
  is shown and which playlist is selected. Every list change goes through one of
  the `PlaylistStore` transforms; the page and the selection are state fields
  that `deletePlaylist`, `openPlaylist` and `goHome` set one after the other.
 */
module HomeApp {
  import opened Wrappers
  import opened Types
  import PlaylistStore

  /** `currentView: 'home' | 'playlist'`. */
  datatype View = Home | PlaylistPage

  /** What the main area shows: the home page, the selected playlist, or nothing. */
  datatype MainArea = HomeScreen | PlaylistScreen(playlist: Playlist) | Blank

  /** The position of an element known to be in `s`. */
  ghost function IndexOf(s: seq<Playlist>, p: Playlist): (i: nat)
    requires p in s
    ensures i < |s| && s[i] == p
  {
    var i :| 0 <= i < |s| && s[i] == p; i
  }

  class App {
    var playlists: seq<Playlist>
    var currentView: View
    var selectedPlaylistId: Option<string>

    /** A playlist page is shown exactly when a playlist is selected. */
    ghost predicate Valid()
      reads this
    {
      currentView == PlaylistPage <==> selectedPlaylistId.Some?
    }

    /** The mount state (before the saved playlists are loaded, which is not modelled). */
    constructor ()
      ensures Valid()
      ensures playlists == [] && currentView == Home && selectedPlaylistId == None
    {
      playlists := [];
      currentView := Home;
      selectedPlaylistId := None;
    }

    method AddVideoToPlaylist(video: Video, playlistId: string, now: Timestamp)
      requires Valid()
      modifies this
      ensures Valid()
      ensures playlists == PlaylistStore.AddVideo(old(playlists), video, playlistId, now)
      ensures currentView == old(currentView) && selectedPlaylistId == old(selectedPlaylistId)
    {
      playlists := PlaylistStore.AddVideo(playlists, video, playlistId, now);
    }

    method CreatePlaylist(name: string, freshId: string, now: Timestamp) returns (id: string)
      requires Valid()
      modifies this
      ensures Valid()
      ensures (playlists, id) == PlaylistStore.Create(old(playlists), name, freshId, now)
      ensures currentView == old(currentView) && selectedPlaylistId == old(selectedPlaylistId)
    {
      var created := PlaylistStore.Create(playlists, name, freshId, now);
      playlists := created.0;
      id := created.1;
    }

    /** Drops the playlist; if it was the selected one, goes back home with no selection. */
    method DeletePlaylist(id: string)
      requires Valid()
      modifies this
      ensures Valid()
      ensures playlists == PlaylistStore.Delete(old(playlists), id)
      ensures old(selectedPlaylistId) == Some(id) ==> currentView == Home && selectedPlaylistId == None
      ensures old(selectedPlaylistId) != Some(id) ==>
                currentView == old(currentView) && selectedPlaylistId == old(selectedPlaylistId)
      ensures old(Main()) != Blank ==> Main() != Blank
    {
      ghost var before := SelectedPlaylist();
      playlists := PlaylistStore.Delete(playlists, id);
      if before.Some? && selectedPlaylistId != Some(id) {
        assert before.value in playlists;
        assert Ids(playlists)[IndexOf(playlists, before.value)] == before.value.id;
      }
      if selectedPlaylistId == Some(id) {
        currentView := Home;
        selectedPlaylistId := None;
      }
    }

    method RenamePlaylist(id: string, newName: string, now: Timestamp)
      requires Valid()
      modifies this
      ensures Valid()
      ensures playlists == PlaylistStore.Rename(old(playlists), id, newName, now)
      ensures currentView == old(currentView) && selectedPlaylistId == old(selectedPlaylistId)
    {
      playlists := PlaylistStore.Rename(playlists, id, newName, now);
    }

    method RemoveVideoFromPlaylist(playlistId: string, videoId: string, now: Timestamp)
      requires Valid()
      modifies this
      ensures Valid()
      ensures playlists == PlaylistStore.RemoveVideo(old(playlists), playlistId, videoId, now)
      ensures currentView == old(currentView) && selectedPlaylistId == old(selectedPlaylistId)
    {
      playlists := PlaylistStore.RemoveVideo(playlists, playlistId, videoId, now);
    }

    method ReorderVideos(playlistId: string, videos: seq<Video>, now: Timestamp)
      requires Valid()
      modifies this
      ensures Valid()
      ensures playlists == PlaylistStore.Reorder(old(playlists), playlistId, videos, now)
      ensures currentView == old(currentView) && selectedPlaylistId == old(selectedPlaylistId)
    {
      playlists := PlaylistStore.Reorder(playlists, playlistId, videos, now);
    }

    method OpenPlaylist(id: string)
      requires Valid()
      modifies this
      ensures Valid()
      ensures selectedPlaylistId == Some(id) && currentView == PlaylistPage && playlists == old(playlists)
    {
      selectedPlaylistId := Some(id);
      currentView := PlaylistPage;
    }

    method GoHome()
      requires Valid()
      modifies this
      ensures Valid()
      ensures currentView == Home && selectedPlaylistId == None && playlists == old(playlists)
    {
      currentView := Home;
      selectedPlaylistId := None;
    }

    /** `selectedPlaylist`: the first playlist carrying the selected id. */
    function SelectedPlaylist(): (r: Option<Playlist>)
      reads this
      ensures r.Some? ==> r.value in playlists && Some(r.value.id) == selectedPlaylistId
      ensures r.None? <==> selectedPlaylistId.None? || selectedPlaylistId.value !in Ids(playlists)
    {
      PlaylistStore.Selected(playlists, selectedPlaylistId)
    }

    /** The main area: the home page, or the selected playlist's view when it still exists, else nothing. */
    function Main(): (r: MainArea)
      reads this
      ensures r == HomeScreen <==> currentView == Home
      ensures r.PlaylistScreen? ==> r.playlist in playlists && Some(r.playlist.id) == selectedPlaylistId
      ensures r == Blank <==> currentView == PlaylistPage && SelectedPlaylist().None?
    {
      var selected := SelectedPlaylist();
      if currentView == Home then HomeScreen
      else if selected.Some? then PlaylistScreen(selected.value)
      else assert currentView.PlaylistPage?; Blank
    }
  }
}

=== FILE: iso_duration.dfy ===
/**
  `YouTubeAPI._parse_duration` (`backend/utils/youtube.py`): turns the duration
  YouTube reports, an ISO 8601 duration such as `PT1H2M3S` (the `PTnHnMnS`
  subset of the format with designators, ISO 8601:2004 section 4.4.3.2), into
  `HH:MM:SS`. The first two characters are dropped without looking at them;
  each of `H` and `M` splits off a field when present; what remains, stripped
  of every `S`, is the seconds. Python's tuple unpacking of a split raises
  `ValueError` when a designator occurs twice; the caller catches every
  exception and reports no details, which is `None` here.
 */
module IsoDuration {
  import opened Wrappers
  import Text
  import Seqs

  /** Python's `s.zfill(2)`: zeros in front up to length 2, after a leading sign if there is one. */
  function Zfill2(s: string): (r: string)
    ensures |r| == if |s| >= 2 then |s| else 2
    ensures |s| >= 2 ==> r == s
    ensures Text.AllDigits(s) ==> r == Text.PadStart2(s)
    ensures |s| == 1 && (s[0] == '+' || s[0] == '-') ==> r == [s[0], '0']
    ensures |s| == 1 && s[0] != '+' && s[0] != '-' ==> r == ['0', s[0]]
    ensures s == [] ==> r == "00"
  {
    if |s| >= 2 then s
    else if |s| == 1 && (s[0] == '+' || s[0] == '-') then [s[0], '0']
    else seq(2 - |s|, _ => '0') + s
  }

  /** `duration[2:]`. */
  function DropTwo(s: string): string {
    if |s| >= 2 then s[2..] else []
  }

  /**
    One `if X in duration: field, duration = duration.split(X)` step: the padded
    field and the text after the designator, the default and the unchanged
    text when the designator is absent, and `None` when it occurs more than once.
   */
  function TakeField(d: string, designator: char): Option<(string, string)> {
    if designator !in d then Some(("00", d))
    else
      var parts := Text.Split(d, designator);
      if |parts| == 2 then Some((Zfill2(parts[0]), parts[1])) else None
  }

  /** The seconds step: every `S` removed, then padded; `"00"` when there is no `S`. */
  function SecondsField(d: string): string {
    if 'S' in d then Zfill2(Seqs.Filter(d, (c: char) => c != 'S')) else "00"
  }

  /** What `_parse_duration` returns for `duration`, or `None` where it raises. */
  function Clock(duration: string): Option<string> {
    var d := DropTwo(duration);
    match TakeField(d, 'H')
    case None => None
    case Some((hours, d1)) =>
      match TakeField(d1, 'M')
      case None => None
      case Some((minutes, d2)) => Some(hours + ":" + minutes + ":" + SecondsField(d2))
  }

  /** `_parse_duration`, reassigning `duration` and the three fields in turn. */
  method ParseDuration(duration: string) returns (r: Option<string>)
    ensures r == Clock(duration)
  {
    var d := DropTwo(duration);
    var hours, minutes, seconds := "00", "00", "00";
    if 'H' in d {
      var parts := Text.Split(d, 'H');
      if |parts| != 2 {
        return None;
      }
      hours, d := Zfill2(parts[0]), parts[1];
    }
    if 'M' in d {
      var parts := Text.Split(d, 'M');
      if |parts| != 2 {
        return None;
      }
      minutes, d := Zfill2(parts[0]), parts[1];
    }
    if 'S' in d {
      seconds := Zfill2(Seqs.Filter(d, (c: char) => c != 'S'));
    }
    return Some(hours + ":" + minutes + ":" + seconds);
  }

  // ---------------------------------------------------------------------------
  // Properties
  // ---------------------------------------------------------------------------

  /** The first two characters are never looked at. */
  lemma PrefixIgnored(a: string, b: string, rest: string)
    requires |a| == 2 && |b| == 2
    ensures Clock(a + rest) == Clock(b + rest)
  {
    assert DropTwo(a + rest) == rest == DropTwo(b + rest);
  }

  /** The text of a present component: decimal digits, at least one. */
  predicate Component(x: string) {
    |x| >= 1 && Text.AllDigits(x)
  }

  /** A component followed by its designator, or nothing when absent. */
  function Part(x: Option<string>, designator: char): string {
    if x.Some? then x.value + [designator] else ""
  }

  /** The `PTnHnMnS` text with the given components, absent ones left out. */
  function Encode(hours: Option<string>, minutes: Option<string>, seconds: Option<string>): string {
    "PT" + Part(hours, 'H') + Part(minutes, 'M') + Part(seconds, 'S')
  }

  /** A field of the result: `"00"` when absent, else the component zero-padded to width 2. */
  function Shown(x: Option<string>): string {
    if x.Some? then Zfill2(x.value) else "00"
  }

  /** A digit string holds none of the designator letters. */
  lemma NoDesignator(x: string)
    requires Text.AllDigits(x)
    ensures 'H' !in x && 'M' !in x && 'S' !in x
  {
  }

  /** Splitting `x + [c] + y` on `c`, where neither side holds `c`, gives the two sides. */
  lemma SplitOnce(x: string, c: char, y: string)
    requires c !in x && c !in y
    ensures Text.Split(x + [c] + y, c) == [x, y]
  {
    Text.SplitCons(x, c, y);
  }

  /** One field step over `x + [c] + y` takes `x` as the field and leaves `y`. */
  lemma TakePresent(x: string, c: char, y: string)
    requires c !in x && c !in y
    ensures TakeField(x + [c] + y, c) == Some((Zfill2(x), y))
  {
    assert (x + [c] + y)[|x|] == c;
    SplitOnce(x, c, y);
  }

  /** The seconds step over `x + "S"` gives `x` padded. */
  lemma SecondsPresent(x: string)
    requires 'S' !in x
    ensures SecondsField(x + "S") == Zfill2(x)
  {
    var keep := (c: char) => c != 'S';
    assert (x + "S")[|x|] == 'S';
    Seqs.FilterAppend(x, "S", keep);
    Seqs.FilterKeepsAll(x, keep);
    assert Seqs.Filter("S", keep) == [];
  }

  /** Whether the component is absent or well formed. */
  predicate MaybeComponent(x: Option<string>) {
    x.Some? ==> Component(x.value)
  }

  /** The seconds step over the seconds part. */
  lemma SecondsStep(seconds: Option<string>)
    requires MaybeComponent(seconds)
    ensures 'H' !in Part(seconds, 'S') && 'M' !in Part(seconds, 'S')
    ensures SecondsField(Part(seconds, 'S')) == Shown(seconds)
  {
    if seconds.Some? {
      var x := seconds.value;
      NoDesignator(x);
      assert Part(seconds, 'S') == x + "S";
      assert 'H' !in x + "S" && 'M' !in x + "S";
      SecondsPresent(x);
    }
  }

  /** The minutes step over the minutes and seconds parts. */
  lemma MinutesStep(minutes: Option<string>, seconds: Option<string>)
    requires MaybeComponent(minutes) && MaybeComponent(seconds)
    ensures 'H' !in Part(minutes, 'M') + Part(seconds, 'S')
    ensures TakeField(Part(minutes, 'M') + Part(seconds, 'S'), 'M') == Some((Shown(minutes), Part(seconds, 'S')))
  {
    var y := Part(seconds, 'S');
    SecondsStep(seconds);
    if minutes.Some? {
      var x := minutes.value;
      NoDesignator(x);
      assert Part(minutes, 'M') + y == x + ['M'] + y;
      TakePresent(x, 'M', y);
    } else {
      assert Part(minutes, 'M') + y == y;
    }
  }

  /** The hours step over the whole text after `PT`. */
  lemma HoursStep(hours: Option<string>, rest: string)
    requires MaybeComponent(hours) && 'H' !in rest
    ensures TakeField(Part(hours, 'H') + rest, 'H') == Some((Shown(hours), rest))
  {
    if hours.Some? {
      NoDesignator(hours.value);
      TakePresent(hours.value, 'H', rest);
    } else {
      assert Part(hours, 'H') + rest == rest;
    }
  }

  /**
    Every `PTnHnMnS` text parses to its components, each rendered as at least
    two digits, missing ones as `00`.
   */
  lemma ClockOfEncoded(hours: Option<string>, minutes: Option<string>, seconds: Option<string>)
    requires MaybeComponent(hours) && MaybeComponent(minutes) && MaybeComponent(seconds)
    ensures Clock(Encode(hours, minutes, seconds)) == Some(Shown(hours) + ":" + Shown(minutes) + ":" + Shown(seconds))
  {
    var rest := Part(minutes, 'M') + Part(seconds, 'S');
    assert Encode(hours, minutes, seconds) == "PT" + (Part(hours, 'H') + rest);
    assert DropTwo(Encode(hours, minutes, seconds)) == Part(hours, 'H') + rest;
    MinutesStep(minutes, seconds);
    HoursStep(hours, rest);
    SecondsStep(seconds);
  }

  /** A one-character component other than a sign gets one zero in front. */
  lemma ZfillOne(c: char)
    requires c != '+' && c != '-'
    ensures Zfill2([c]) == ['0', c]
  {
    assert seq(1, _ => '0') == ['0'];
  }

  /** Three two-character fields joined with colons, character by character. */
  lemma JoinFields(a: string, b: string, c: string)
    requires |a| == 2 && |b| == 2 && |c| == 2
    ensures a + ":" + b + ":" + c == [a[0], a[1], ':', b[0], b[1], ':', c[0], c[1]]
  {
  }

  /** A worked example: `PT1H2M3S` is one hour, two minutes and three seconds. */
  lemma ExampleFull()
    ensures Clock("PT1H2M3S") == Some("01:02:03")
  {
    var h, m, sec := Some("1"), Some("2"), Some("3");
    ClockOfEncoded(h, m, sec);
    assert Encode(h, m, sec) == "PT1H2M3S";
    ZfillOne('1');
    ZfillOne('2');
    ZfillOne('3');
    JoinFields(Shown(h), Shown(m), Shown(sec));
  }

  /** A worked example: `PT5M` has no hours and no seconds. */
  lemma ExampleMinutesOnly()
    ensures Clock("PT5M") == Some("00:05:00")
  {
    var m: Option<string> := Some("5");
    ClockOfEncoded(None, m, None);
    assert Encode(None, m, None) == "PT5M";
    ZfillOne('5');
    JoinFields(Shown(None), Shown(m), Shown(None));
  }

  /** Two hour designators make the unpacking raise. */
  lemma TwoHoursRejected(prefix: string, a: string, b: string, c: string)
    requires |prefix| == 2 && 'H' !in a
    ensures Clock(prefix + a + "H" + b + "H" + c) == None
  {
    var d := a + ['H'] + (b + "H" + c);
    assert DropTwo(prefix + a + "H" + b + "H" + c) == d;
    assert d[|a|] == 'H';
    Text.SplitCons(a, 'H', b + "H" + c);
    assert 'H' in b + "H" + c by { assert (b + "H" + c)[|b|] == 'H'; }
  }
}

=== FILE: playback.dfy ===
/**
  The playlist page's player (`src/components/PlaylistView.tsx`): a cursor made
  of the index of the current video and whether the player is open, the rules
  that move it, the guard that decides whether the player shows a video, and
  the rendering of a duration in seconds as `H:MM:SS` or `M:SS`.
 */
module Playback {
  import opened Wrappers
  import opened Types
  import Seqs
  import Text

  /** The two state fields `currentVideoIndex` and `isPlaying` taken together. */
  datatype Cursor = Cursor(index: nat, playing: bool)

  /** The state on mount. */
  const Start := Cursor(0, false)

  /** `handleVideoEnd` for a playlist of `count` videos: advance, or stop on the last one with no wraparound. */
  function VideoEnd(c: Cursor, count: nat): (r: Cursor)
    ensures c.index + 1 < count ==> r == Cursor(c.index + 1, c.playing)
    ensures c.index + 1 >= count ==> r == Cursor(c.index, false)
  {
    if c.index < count - 1 then c.(index := c.index + 1) else c.(playing := false)
  }

  /** `playVideo(index)`: no range check. */
  function Play(index: nat): Cursor {
    Cursor(index, true)
  }

  /** The player's close button. */
  function Close(c: Cursor): Cursor {
    c.(playing := false)
  }

  /** The video the player shows, if any: only while playing and when the index lies inside the list. */
  function PlayerVideo(c: Cursor, videos: seq<Video>): (r: Option<Video>)
    ensures r.Some? <==> c.playing && c.index < |videos|
    ensures r.Some? ==> r.value == videos[c.index]
  {
    if c.playing && c.index < |videos| then Some(videos[c.index]) else None
  }

  /** Row `i` is marked as the one playing. */
  predicate Highlighted(c: Cursor, i: nat) {
    c.playing && c.index == i
  }

  /** The cursor after `k` videos have ended in a row. */
  function Ends(c: Cursor, count: nat, k: nat): Cursor {
    if k == 0 then c else VideoEnd(Ends(c, count, k - 1), count)
  }

  /**
    "Play All" plays every video once, in list order: after `k` endings the
    `k`-th video is on, and once the last has ended the player stops on it.
   */
  lemma {:induction false} PlayAllRunsThrough(count: nat, k: nat)
    requires count >= 1
    ensures Ends(Play(0), count, k) == if k < count then Play(k) else Cursor(count - 1, false)
  {
    if k > 0 {
      PlayAllRunsThrough(count, k - 1);
    }
  }

  /** While the player is open it shows exactly the highlighted row's video. */
  lemma PlayerShowsHighlighted(c: Cursor, videos: seq<Video>, i: nat)
    requires i < |videos|
    ensures Highlighted(c, i) <==> PlayerVideo(c, videos) == Some(videos[i]) && c.index == i
  {
  }

  /** Playing from any row and letting the list run ends on the last video; nothing wraps round to the start. */
  lemma {:induction false} NoWraparound(start: nat, count: nat, k: nat)
    requires start < count
    ensures var c := Ends(Play(start), count, k);
            c.index == if start + k < count then start + k else count - 1
    ensures var c := Ends(Play(start), count, k);
            c.playing <==> start + k < count
  {
    if k > 0 {
      NoWraparound(start, count, k - 1);
    }
  }

  class PlaylistView {
    var currentVideoIndex: nat
    var isPlaying: bool

    constructor ()
      ensures State() == Start
    {
      currentVideoIndex := 0;
      isPlaying := false;
    }

    function State(): Cursor
      reads this
    {
      Cursor(currentVideoIndex, isPlaying)
    }

    method HandleVideoEnd(videos: seq<Video>)
      modifies this
      ensures State() == VideoEnd(old(State()), |videos|)
    {
      if currentVideoIndex < |videos| - 1 {
        currentVideoIndex := currentVideoIndex + 1;
      } else {
        isPlaying := false;
      }
    }

    method PlayVideo(index: nat)
      modifies this
      ensures State() == Play(index)
    {
      currentVideoIndex := index;
      isPlaying := true;
    }

    /**
      `shufflePlaylist`: `order` stands for the arrangement the random comparator
      happens to produce; the shuffled copy goes to `onReorderVideos`, and the
      index returns to the first video while the play state is kept.
     */
    method ShufflePlaylist(videos: seq<Video>, order: seq<nat>) returns (shuffled: seq<Video>)
      requires Seqs.IsPermutation(order, |videos|)
      modifies this
      ensures |shuffled| == |videos| && multiset(shuffled) == multiset(videos)
      ensures forall k :: 0 <= k < |videos| ==> shuffled[k] == videos[order[k]]
      ensures State() == Cursor(0, old(isPlaying))
    {
      shuffled := Seqs.Permute(videos, order);
      Seqs.PermutePreservesMultiset(videos, order);
      currentVideoIndex := 0;
    }

    method ClosePlayer()
      modifies this
      ensures State() == Close(old(State()))
    {
      isPlaying := false;
    }
  }

  // ---------------------------------------------------------------------------
  // formatDuration
  // ---------------------------------------------------------------------------

  /**
    JavaScript's `a % b` for a positive `b`: the remainder takes the sign of
    `a`, unlike Dafny's `%`, whose remainder is never negative.
   */
  function JsRem(a: int, b: int): (r: int)
    requires b > 0
    ensures a >= 0 ==> r == a % b
    ensures a < 0 ==> -b < r <= 0
    // the same class modulo `b` as Dafny's Euclidean remainder, taken on the dividend's side of zero
    ensures a < 0 ==> r == if a % b == 0 then 0 else a % b - b
  {
    if a >= 0 then a % b
    else
      var q, t := (-a) / b, (-a) % b;
      assert a == b * -q - t;
      if t == 0 then
        MulMod(b, -q, 0);
        -t
      else
        assert a == b * (-q - 1) + (b - t);
        MulMod(b, -q - 1, b - t);
        -t
  }

  /** Dafny's `%` on a positive divisor gives back any remainder in `[0, b)`. */
  lemma MulMod(b: int, k: int, t: int)
    requires b > 0 && 0 <= t < b
    ensures (b * k + t) % b == t
  {
    var x := b * k + t;
    var m := k - x / b;
    assert b * m == x % b - t;
  }

  /**
    The hours, minutes and seconds `formatDuration` computes from the number
    `parseInt` returns. `Math.floor(x / d)` for a positive divisor `d` is
    Dafny's `x / d`, which rounds towards negative infinity for such a divisor.
   */
  function Hours(n: int): int { n / 3600 }
  function Minutes(n: int): int { JsRem(n, 3600) / 60 }
  function Seconds(n: int): int { JsRem(n, 60) }

  /** A minutes or seconds field: `k.toString().padStart(2, '0')`. */
  function Field2(k: int): (r: string)
    ensures ':' !in r
  {
    Text.PadStart2(Text.IntToString(k))
  }

  /**
    `formatDuration` for the number `parseInt` returns: hours are shown exactly
    from one hour on, so the text has three colon-separated fields from 3600
    on and two below, negative numbers included.
   */
  function FormatDuration(n: int): (r: string)
    ensures |Text.Split(r, ':')| == if n >= 3600 then 3 else 2
  {
    var (m, sec) := (Field2(Minutes(n)), Field2(Seconds(n)));
    if Hours(n) > 0 then
      var h := Text.IntToString(Hours(n));
      SplitThree(h, m, sec);
      h + ":" + m + ":" + sec
    else
      var mm := Text.IntToString(Minutes(n));
      SplitTwo(mm, sec);
      mm + ":" + sec
  }

  /**
    A negative count, which `parseInt` yields for text such as `"-5"`: the
    hours round down to -1 or below and are never shown, and the minutes and
    seconds carry the count's sign.
   */
  lemma NegativeDuration(n: int)
    requires n < 0
    ensures Hours(n) <= -1
    ensures -60 <= Minutes(n) <= 0 && -60 < Seconds(n) <= 0
  {
  }

  /** `-5` renders as `-1:-5`: `Math.floor` takes the minutes to -1, and the seconds keep the sign. */
  lemma NegativeFiveSeconds()
    ensures FormatDuration(-5) == "-1:-5"
  {
    assert Hours(-5) == -1 && Minutes(-5) == -1 && Seconds(-5) == -5;
    var mm, sec := Text.IntToString(-1), Field2(-5);
    assert mm == ['-', '1'] && sec == ['-', '5'];
    assert FormatDuration(-5) == mm + ":" + sec;
    assert mm + ":" + sec == ['-', '1', ':', '-', '5'];
  }

  /** A whole negative hour renders as `0:00`: both remainders are zero. */
  lemma NegativeHour()
    ensures FormatDuration(-3600) == "0:00"
  {
    assert Hours(-3600) == -1 && Minutes(-3600) == 0 && Seconds(-3600) == 0;
    var mm, sec := Text.IntToString(0), Field2(0);
    assert mm == ['0'] && sec == ['0', '0'];
    assert FormatDuration(-3600) == mm + ":" + sec;
    assert mm + ":" + sec == ['0', ':', '0', '0'];
  }

  /** The number of seconds in `h` hours, `m` minutes and `s` seconds. */
  function ClockValue(h: nat, m: nat, s: nat): nat {
    h * 3600 + m * 60 + s
  }

  /** Reads `H:MM:SS` or `M:SS` back into seconds. */
  function ParseClock(s: string): Option<nat> {
    var parts := Text.Split(s, ':');
    if |parts| == 3 && Text.AllDigits(parts[0]) && Text.AllDigits(parts[1]) && Text.AllDigits(parts[2]) then
      Some(ClockValue(Text.DigitsValue(parts[0]), Text.DigitsValue(parts[1]), Text.DigitsValue(parts[2])))
    else if |parts| == 2 && Text.AllDigits(parts[0]) && Text.AllDigits(parts[1]) then
      Some(ClockValue(0, Text.DigitsValue(parts[0]), Text.DigitsValue(parts[1])))
    else None
  }

  /** A number below 100 renders in at most two digits. */
  lemma SmallNatToString(k: nat)
    requires k < 100
    ensures |Text.NatToString(k)| <= 2
  {
    if k >= 10 {
      assert Text.NatToString(k) == Text.NatToString(k / 10) + [Text.DigitChar(k % 10)];
    }
  }

  /** A field below 60, padded: two digits worth the field. */
  lemma PaddedField(k: nat)
    requires k < 60
    ensures var f := Field2(k);
            |f| == 2 && Text.AllDigits(f) && Text.DigitsValue(f) == k
  {
    SmallNatToString(k);
    Text.PadStart2Value(Text.NatToString(k));
    Text.NatToStringRoundTrip(k);
  }

  /** A digit string holds no colon, so it is one piece when split on colons. */
  lemma DigitsSplit(s: string)
    requires Text.AllDigits(s)
    ensures ':' !in s && Text.Split(s, ':') == [s]
  {
  }

  /** The three fields recombine to `n`, the lower two lie below 60, and there are hours exactly from 3600 seconds on. */
  lemma ClockArithmetic(n: nat)
    ensures Minutes(n) < 60 && Seconds(n) < 60
    ensures Hours(n) * 3600 + Minutes(n) * 60 + Seconds(n) == n
    ensures Hours(n) > 0 <==> n >= 3600
  {
    var q, r := n / 3600, n % 3600;
    var m, s := r / 60, r % 60;
    assert r == m * 60 + s;
    assert n == (q * 60 + m) * 60 + s;
    Mod60(n, q * 60 + m, s);
  }

  /** The remainder by 60 of `q * 60 + r` is `r`. */
  lemma Mod60(n: int, q: int, r: int)
    requires 0 <= r < 60 && n == q * 60 + r
    ensures n % 60 == r
  {
  }

  /**
    The pieces of `formatDuration(n)`: the hours (when there are any) as they
    are, minutes and seconds in exactly two digits, and three fields exactly
    when `n` is at least an hour.
   */
  lemma FormatDurationFields(n: nat)
    ensures var parts := Text.Split(FormatDuration(n), ':');
            && (|parts| == 3 <==> n >= 3600)
            && (|parts| == 2 <==> n < 3600)
            && parts[|parts| - 1] == Field2(Seconds(n))
            && (n >= 3600 ==> parts[0] == Text.NatToString(Hours(n)) && parts[1] == Field2(Minutes(n)))
            && (n < 3600 ==> parts[0] == Text.NatToString(Minutes(n)))
  {
    ClockArithmetic(n);
    var h, m, sec := Hours(n), Minutes(n), Seconds(n);
    assert Text.IntToString(h) == Text.NatToString(h) && Text.IntToString(m) == Text.NatToString(m);
    if h > 0 {
      assert FormatDuration(n) == Text.NatToString(h) + ":" + Field2(m) + ":" + Field2(sec);
      SplitThree(Text.NatToString(h), Field2(m), Field2(sec));
    } else {
      assert FormatDuration(n) == Text.NatToString(m) + ":" + Field2(sec);
      SplitTwo(Text.NatToString(m), Field2(sec));
    }
  }

  /** `a:b` splits back into `a` and `b` when neither holds a colon. */
  lemma SplitTwo(a: string, b: string)
    requires ':' !in a && ':' !in b
    ensures Text.Split(a + ":" + b, ':') == [a, b]
  {
    assert a + ":" + b == a + [':'] + b;
    Text.SplitCons(a, ':', b);
  }

  /** `a:b:c` splits back into `a`, `b` and `c` when none holds a colon. */
  lemma SplitThree(a: string, b: string, c: string)
    requires ':' !in a && ':' !in b && ':' !in c
    ensures Text.Split(a + ":" + b + ":" + c, ':') == [a, b, c]
  {
    SplitTwo(b, c);
    assert a + ":" + b + ":" + c == a + [':'] + (b + ":" + c);
    Text.SplitCons(a, ':', b + ":" + c);
  }

  /** `H:MM:SS` text of digit fields reads back as their weighted sum. */
  lemma ParseThree(a: string, b: string, c: string)
    requires Text.AllDigits(a) && Text.AllDigits(b) && Text.AllDigits(c)
    ensures ParseClock(a + ":" + b + ":" + c)
            == Some(ClockValue(Text.DigitsValue(a), Text.DigitsValue(b), Text.DigitsValue(c)))
  {
    DigitsSplit(a);
    DigitsSplit(b);
    DigitsSplit(c);
    SplitThree(a, b, c);
  }

  /** `M:SS` text of digit fields reads back as their weighted sum. */
  lemma ParseTwo(a: string, b: string)
    requires Text.AllDigits(a) && Text.AllDigits(b)
    ensures ParseClock(a + ":" + b) == Some(ClockValue(0, Text.DigitsValue(a), Text.DigitsValue(b)))
  {
    DigitsSplit(a);
    DigitsSplit(b);
    SplitTwo(a, b);
  }

  /** Rendered fields read back as the values they were rendered from. */
  lemma FieldsRoundTrip(h: nat, m: nat, sec: nat)
    requires m < 60 && sec < 60
    ensures ParseClock(Text.NatToString(h) + ":" + Field2(m) + ":" + Field2(sec)) == Some(ClockValue(h, m, sec))
    ensures ParseClock(Text.NatToString(m) + ":" + Field2(sec)) == Some(ClockValue(0, m, sec))
  {
    PaddedField(m);
    PaddedField(sec);
    Text.NatToStringRoundTrip(h);
    Text.NatToStringRoundTrip(m);
    ParseThree(Text.NatToString(h), Field2(m), Field2(sec));
    ParseTwo(Text.NatToString(m), Field2(sec));
  }

  /** Reading the rendered duration back yields the number of seconds. */
  lemma FormatDurationRoundTrip(n: nat)
    ensures ParseClock(FormatDuration(n)) == Some(n)
  {
    ClockArithmetic(n);
    FieldsRoundTrip(Hours(n), Minutes(n), Seconds(n));
    assert ClockValue(Hours(n), Minutes(n), Seconds(n)) == n;
  }
}

=== FILE: playlist_grid.dfy ===
/**
  The dashboard's playlist cards (`frontend/src/components/PlaylistGrid.tsx`):
  the inline rename state (`editingId`, `editName`), and what each card shows
  from a playlist: the first video's thumbnail, the last video's title and the
  pluralised count.
 */
module PlaylistGrid {
  import opened Wrappers
  import opened Types
  import Text

  /**
    What `saveEdit` asks the shell to rename, if anything: only when a card is
    being edited (an empty id counts as none, as JavaScript's truthiness has it)
    and the name is not blank, and then with the trimmed name.
   */
  function RenameRequest(editingId: Option<string>, editName: string): (r: Option<(string, string)>)
    ensures r.Some? <==> editingId.Some? && editingId.value != [] && Text.Trim(editName) != []
    ensures r.Some? ==> r.value.0 == editingId.value && r.value.1 == Text.Trim(editName)
  {
    if editingId.Some? && editingId.value != [] && Text.Trim(editName) != [] then
      Some((editingId.value, Text.Trim(editName)))
    else None
  }

  /** A requested name is never blank, has no whitespace at either end, and trims to itself. */
  lemma RequestedNameIsTrimmed(editingId: Option<string>, editName: string)
    requires RenameRequest(editingId, editName).Some?
    ensures var name := RenameRequest(editingId, editName).value.1;
            && name != []
            && !Text.IsWhitespace(name[0]) && !Text.IsWhitespace(name[|name| - 1])
            && Text.Trim(name) == name
  {
    Text.TrimSlice(editName);
    Text.TrimIdempotent(editName);
  }

  /** A name made only of whitespace never leads to a rename. */
  lemma BlankNameNeverRenames(editingId: Option<string>, editName: string)
    requires forall i :: 0 <= i < |editName| ==> Text.IsWhitespace(editName[i])
    ensures RenameRequest(editingId, editName) == None
  {
    Text.TrimEmpty(editName);
  }

  /** Opening the editor and saving straight away renames to the current name, trimmed, unless it is blank. */
  lemma SaveUnchangedName(p: Playlist)
    requires p.id != [] && Text.Trim(p.name) != []
    ensures RenameRequest(Some(p.id), p.name) == Some((p.id, Text.Trim(p.name)))
    ensures Text.Trim(p.name) == p.name ==> RenameRequest(Some(p.id), p.name) == Some((p.id, p.name))
  {
  }

  class Grid {
    var editingId: Option<string>
    var editName: string

    constructor ()
      ensures editingId == None && editName == []
      ensures forall q :: !IsEditing(q)
    {
      editingId := None;
      editName := [];
    }

    /** The rename button: edit this card, starting from its current name. */
    method StartEditing(p: Playlist)
      modifies this
      ensures editingId == Some(p.id) && editName == p.name
      // exactly the cards with this id show the input
      ensures forall q :: IsEditing(q) <==> q.id == p.id
    {
      editingId := Some(p.id);
      editName := p.name;
    }

    /** Typing into the name field. */
    method SetEditName(name: string)
      modifies this
      ensures editName == name && editingId == old(editingId)
      ensures forall q :: IsEditing(q) == old(IsEditing(q))
    {
      editName := name;
    }

    /** Enter or leaving the field: request the rename if there is one, then close the editor. */
    method SaveEdit() returns (rename: Option<(string, string)>)
      modifies this
      ensures rename == RenameRequest(old(editingId), old(editName))
      ensures editingId == None && editName == []
      ensures forall q :: !IsEditing(q)
    {
      if editingId.Some? && editingId.value != [] && Text.Trim(editName) != [] {
        rename := Some((editingId.value, Text.Trim(editName)));
      } else {
        rename := None;
      }
      editingId := None;
      editName := [];
    }

    /** Closing the editor without renaming. */
    method CancelEdit()
      modifies this
      ensures editingId == None && editName == []
      ensures forall q :: !IsEditing(q)
    {
      editingId := None;
      editName := [];
    }

    /** The card whose name is shown as an input field. */
    function IsEditing(p: Playlist): (b: bool)
      reads this
      ensures b <==> editingId == Some(p.id)
    {
      editingId == Some(p.id)
    }
  }

  /** The card's image: the first video's thumbnail, or the placeholder icon for an empty playlist. */
  function CardThumbnail(p: Playlist): (r: Option<string>)
    ensures r.None? <==> p.videos == []
    ensures r.Some? ==> r.value == p.videos[0].thumbnail
  {
    if |p.videos| > 0 then Some(p.videos[0].thumbnail) else None
  }

  /** The "Latest:" line: the title of the last video, absent for an empty playlist. */
  function Latest(p: Playlist): (r: Option<string>)
    ensures r.None? <==> p.videos == []
    ensures r.Some? ==> r.value == p.videos[|p.videos| - 1].title
  {
    if |p.videos| > 0 then Some(p.videos[|p.videos| - 1].title) else None
  }

  /** After adding a video to a playlist, the card's "Latest:" line shows that video's title. */
  lemma LatestAfterAdd(p: Playlist, v: Video, now: Timestamp)
    ensures Latest(p.(videos := p.videos + [v], updatedAt := now)) == Some(v.title)
    ensures p.videos != [] ==> CardThumbnail(p.(videos := p.videos + [v], updatedAt := now)) == CardThumbnail(p)
  {
  }

  /** `{n} playlist{n !== 1 ? 's' : ''}`. */
  function CountLabel(n: nat): (r: string)
    ensures |r| > |Text.NatToString(n)| && r[..|Text.NatToString(n)|] == Text.NatToString(n)
    ensures r[|Text.NatToString(n)|..] == if n == 1 then " playlist" else " playlists"
  {
    Text.NatToString(n) + " playlist" + (if n != 1 then "s" else "")
  }
}

=== FILE: playlist_store.dfy ===
/**
  The playlist store transforms: the updater functions that both application
  shells (`src/App.tsx` and `frontend/src/App.tsx`, identical in this respect)
  hand to `setPlaylists`. Each is a `map`, a `filter` or an append over the
  list of playlists; the clock (`new Date()`) and the id source (`Date.now()`)
  are the parameters `now` and `freshId`. The store validates nothing: an
  unknown id is simply not matched, and names are taken as given.
 */
module PlaylistStore {
  import opened Wrappers
  import opened Types
  import Seqs

  /** Everything outside the playlists with id `id` is as before, and the list keeps its ids in order. */
  predicate OnlyTouches(ps: seq<Playlist>, r: seq<Playlist>, id: string) {
    && Ids(r) == Ids(ps)
    && forall i :: 0 <= i < |ps| && ps[i].id != id ==> r[i] == ps[i]
  }

  /** `addVideoToPlaylist`: append `video` to the matching playlist and stamp it. */
  function AddVideo(ps: seq<Playlist>, video: Video, playlistId: string, now: Timestamp): (r: seq<Playlist>)
    ensures OnlyTouches(ps, r, playlistId)
    ensures forall i :: 0 <= i < |ps| && ps[i].id == playlistId ==>
              && r[i].videos == ps[i].videos + [video]
              && r[i].videos[|r[i].videos| - 1] == video
              && r[i].updatedAt == now
              && r[i].name == ps[i].name && r[i].createdAt == ps[i].createdAt
  {
    Seqs.MapWhere(ps, (p: Playlist) => p.id == playlistId, (p: Playlist) => p.(videos := p.videos + [video], updatedAt := now))
  }

  /** The record `createPlaylist` builds. */
  function NewPlaylist(name: string, freshId: string, now: Timestamp): Playlist {
    Playlist(freshId, name, [], now, now)
  }

  /** `createPlaylist`: the new list of playlists and the id the function returns. */
  function Create(ps: seq<Playlist>, name: string, freshId: string, now: Timestamp): (r: (seq<Playlist>, string))
    ensures |r.0| == |ps| + 1 && r.0[..|ps|] == ps
    ensures var p := r.0[|ps|];
            p.id == r.1 && p.name == name && p.videos == [] && p.createdAt == now && p.updatedAt == now
  {
    var p := NewPlaylist(name, freshId, now);
    (ps + [p], p.id)
  }

  /** `deletePlaylist`'s list update: drop every playlist with id `id`. */
  function Delete(ps: seq<Playlist>, id: string): (r: seq<Playlist>)
    ensures forall p :: p in r <==> p in ps && p.id != id
    ensures id !in Ids(r)
    ensures id !in Ids(ps) ==> r == ps
  {
    var r := Seqs.Filter(ps, (p: Playlist) => p.id != id);
    Seqs.FilterKeepsAll(ps, (p: Playlist) => p.id != id);
    assert forall i :: 0 <= i < |r| ==> r[i] in r;
    r
  }

  /** `renamePlaylist`: replace the name of the matching playlist and stamp it. */
  function Rename(ps: seq<Playlist>, id: string, newName: string, now: Timestamp): (r: seq<Playlist>)
    ensures OnlyTouches(ps, r, id)
    ensures forall i :: 0 <= i < |ps| && ps[i].id == id ==>
              r[i] == ps[i].(name := newName, updatedAt := now)
  {
    Seqs.MapWhere(ps, (p: Playlist) => p.id == id, (p: Playlist) => p.(name := newName, updatedAt := now))
  }

  /** The videos that survive removing video id `videoId`. */
  function WithoutVideo(vs: seq<Video>, videoId: string): (r: seq<Video>)
    ensures forall v :: v in r <==> v in vs && v.id != videoId
  {
    Seqs.Filter(vs, (v: Video) => v.id != videoId)
  }

  /** `removeVideoFromPlaylist`: drop the matching playlist's videos with id `videoId` and stamp it, even if none matched. */
  function RemoveVideo(ps: seq<Playlist>, playlistId: string, videoId: string, now: Timestamp): (r: seq<Playlist>)
    ensures OnlyTouches(ps, r, playlistId)
    ensures forall i :: 0 <= i < |ps| && ps[i].id == playlistId ==>
              r[i] == ps[i].(videos := WithoutVideo(ps[i].videos, videoId), updatedAt := now)
  {
    Seqs.MapWhere(ps, (p: Playlist) => p.id == playlistId,
                  (p: Playlist) => p.(videos := WithoutVideo(p.videos, videoId), updatedAt := now))
  }

  /** `reorderVideos`: replace the matching playlist's videos wholesale, unchecked, and stamp it. */
  function Reorder(ps: seq<Playlist>, playlistId: string, videos: seq<Video>, now: Timestamp): (r: seq<Playlist>)
    ensures OnlyTouches(ps, r, playlistId)
    ensures forall i :: 0 <= i < |ps| && ps[i].id == playlistId ==>
              r[i] == ps[i].(videos := videos, updatedAt := now)
  {
    Seqs.MapWhere(ps, (p: Playlist) => p.id == playlistId, (p: Playlist) => p.(videos := videos, updatedAt := now))
  }

  /** `playlists.find(p => p.id === selectedPlaylistId)`; a null selection matches nothing. */
  function Selected(ps: seq<Playlist>, selectedId: Option<string>): (r: Option<Playlist>)
    ensures r.None? <==> selectedId.None? || selectedId.value !in Ids(ps)
    ensures r.Some? ==> exists i :: 0 <= i < |ps| && ps[i] == r.value && ps[i].id == selectedId.value &&
                                    forall j :: 0 <= j < i ==> ps[j].id != selectedId.value
  {
    match selectedId
    case None => None
    case Some(id) =>
      var r := Seqs.Find(ps, (p: Playlist) => p.id == id);
      assert r.None? <==> id !in Ids(ps);
      r
  }

  // ---------------------------------------------------------------------------
  // Properties relating several operations
  // ---------------------------------------------------------------------------

  /** Removing a video twice leaves the list as one removal at the later time does. */
  lemma RemoveVideoTwice(ps: seq<Playlist>, playlistId: string, videoId: string, t1: Timestamp, t2: Timestamp)
    ensures RemoveVideo(RemoveVideo(ps, playlistId, videoId, t1), playlistId, videoId, t2)
            == RemoveVideo(ps, playlistId, videoId, t2)
  {
    var once := RemoveVideo(ps, playlistId, videoId, t1);
    var a := RemoveVideo(once, playlistId, videoId, t2);
    var b := RemoveVideo(ps, playlistId, videoId, t2);
    forall i | 0 <= i < |ps| ensures a[i] == b[i] {
      if ps[i].id == playlistId {
        Seqs.FilterIdempotent(ps[i].videos, (v: Video) => v.id != videoId);
      }
    }
  }

  /** `filter` keeps the surviving playlists in their order: deleting from a concatenation deletes from each part. */
  lemma DeleteAppend(a: seq<Playlist>, b: seq<Playlist>, id: string)
    ensures Delete(a + b, id) == Delete(a, id) + Delete(b, id)
  {
    Seqs.FilterAppend(a, b, (p: Playlist) => p.id != id);
  }

  /** Every surviving playlist occurs as often as before, and the deleted ones not at all. */
  lemma DeleteCount(ps: seq<Playlist>, id: string, p: Playlist)
    ensures multiset(Delete(ps, id))[p] == if p.id != id then multiset(ps)[p] else 0
  {
    Seqs.FilterCount(ps, (p: Playlist) => p.id != id, p);
  }

  /** `filter` keeps the surviving videos in their order: removing from a concatenation removes from each part. */
  lemma WithoutVideoAppend(a: seq<Video>, b: seq<Video>, videoId: string)
    ensures WithoutVideo(a + b, videoId) == WithoutVideo(a, videoId) + WithoutVideo(b, videoId)
  {
    Seqs.FilterAppend(a, b, (v: Video) => v.id != videoId);
  }

  /** Every surviving video occurs as often as before, and the removed ones not at all. */
  lemma WithoutVideoCount(vs: seq<Video>, videoId: string, v: Video)
    ensures multiset(WithoutVideo(vs, videoId))[v] == if v.id != videoId then multiset(vs)[v] else 0
  {
    Seqs.FilterCount(vs, (v: Video) => v.id != videoId, v);
  }

  /** After a delete, the deleted id selects nothing. */
  lemma DeleteUnselects(ps: seq<Playlist>, id: string)
    ensures Selected(Delete(ps, id), Some(id)).None?
  {
  }

  /** Ids are pairwise distinct. */
  predicate UniqueIds(ps: seq<Playlist>) {
    forall i, j :: 0 <= i < j < |ps| ==> ps[i].id != ps[j].id
  }

  /** Creating with an id not yet in use keeps the ids distinct; the source itself does not check this. */
  lemma CreateKeepsUniqueIds(ps: seq<Playlist>, name: string, freshId: string, now: Timestamp)
    requires UniqueIds(ps) && freshId !in Ids(ps)
    ensures UniqueIds(Create(ps, name, freshId, now).0)
  {
    var r := Create(ps, name, freshId, now).0;
    forall i, j | 0 <= i < j < |r| ensures r[i].id != r[j].id {
      if j == |ps| { assert Ids(ps)[i] == r[i].id; }
    }
  }

  /** Deleting keeps the ids distinct. */
  lemma DeleteKeepsUniqueIds(ps: seq<Playlist>, id: string)
    requires UniqueIds(ps)
    ensures UniqueIds(Delete(ps, id))
  {
    var keep := (p: Playlist) => p.id != id;
    assert Delete(ps, id) == Seqs.Filter(ps, keep);
    Seqs.FilterKeepsPairwise(ps, keep, (p: Playlist, q: Playlist) => p.id != q.id);
  }

  /** Every playlist was created no later than its last update, and both lie no later than `now`. */
  predicate StampsOrdered(ps: seq<Playlist>, now: Timestamp) {
    forall i :: 0 <= i < |ps| ==> ps[i].createdAt <= ps[i].updatedAt <= now
  }

  /** With a clock that does not run backwards, every store operation keeps the stamps ordered. */
  lemma StoreKeepsStampsOrdered(ps: seq<Playlist>, now: Timestamp, later: Timestamp,
                                id: string, video: Video, name: string, videos: seq<Video>, videoId: string)
    requires StampsOrdered(ps, now) && now <= later
    ensures StampsOrdered(AddVideo(ps, video, id, later), later)
    ensures StampsOrdered(Create(ps, name, id, later).0, later)
    ensures StampsOrdered(Delete(ps, id), later)
    ensures StampsOrdered(Rename(ps, id, name, later), later)
    ensures StampsOrdered(RemoveVideo(ps, id, videoId, later), later)
    ensures StampsOrdered(Reorder(ps, id, videos, later), later)
  {
    var d := Delete(ps, id);
    forall i | 0 <= i < |d| ensures d[i].createdAt <= d[i].updatedAt <= later {
      assert d[i] in d;
    }
  }
}

=== FILE: seqs.dfy ===
/**
  The three array idioms every list transform of the application is built from:
  `Array.prototype.filter`, a `map` that rewrites only the matching elements,
  and `Array.prototype.find`; plus the rearrangement of a sequence by a
  permutation of its indices, which is what a `sort` with an arbitrary
  comparator does to an array.
 */
module Seqs {
  import opened Wrappers

  // ---------------------------------------------------------------------------
  // filter
  // ---------------------------------------------------------------------------

  /** The elements of `s` that satisfy `keep`, in their original order. */
  function Filter<T(!new)>(s: seq<T>, keep: T -> bool): (r: seq<T>)
    ensures |r| <= |s|
    ensures forall x :: x in r <==> x in s && keep(x)
  {
    if s == [] then []
    else if keep(s[0]) then [s[0]] + Filter(s[1..], keep)
    else Filter(s[1..], keep)
  }

  /** Filtering distributes over concatenation: the kept elements stay in order. */
  lemma {:induction false} FilterAppend<T(!new)>(a: seq<T>, b: seq<T>, keep: T -> bool)
    ensures Filter(a + b, keep) == Filter(a, keep) + Filter(b, keep)
  {
    if a == [] {
      assert a + b == b;
    } else {
      assert (a + b)[1..] == a[1..] + b;
      FilterAppend(a[1..], b, keep);
    }
  }

  /** Each element occurs in the result exactly as often as in the input if it is kept, and never otherwise. */
  lemma {:induction false} FilterCount<T(!new)>(s: seq<T>, keep: T -> bool, x: T)
    ensures multiset(Filter(s, keep))[x] == if keep(x) then multiset(s)[x] else 0
  {
    if s != [] {
      FilterCount(s[1..], keep, x);
      assert s == [s[0]] + s[1..];
      assert multiset(s) == multiset{s[0]} + multiset(s[1..]);
    }
  }

  /** Filtering keeps the whole input exactly when every element is kept. */
  lemma {:induction false} FilterKeepsAll<T(!new)>(s: seq<T>, keep: T -> bool)
    ensures Filter(s, keep) == s <==> forall i :: 0 <= i < |s| ==> keep(s[i])
  {
    if s != [] {
      FilterKeepsAll(s[1..], keep);
      if !keep(s[0]) {
        assert |Filter(s, keep)| < |s|;
      } else if Filter(s, keep) == s {
        assert Filter(s[1..], keep) == s[1..];
        forall i | 0 <= i < |s| ensures keep(s[i]) {
          if i > 0 { assert s[i] == s[1..][i - 1]; }
        }
      } else {
        assert Filter(s[1..], keep) != s[1..];
      }
    }
  }

  /** A second filter with the same condition changes nothing. */
  lemma FilterIdempotent<T(!new)>(s: seq<T>, keep: T -> bool)
    ensures Filter(Filter(s, keep), keep) == Filter(s, keep)
  {
    var r := Filter(s, keep);
    forall i | 0 <= i < |r| ensures keep(r[i]) {
      assert r[i] in r;
    }
    FilterKeepsAll(r, keep);
  }

  /** Two conditions that agree on every element of `s` filter it alike. */
  lemma {:induction false} FilterSameCondition<T(!new)>(s: seq<T>, keep1: T -> bool, keep2: T -> bool)
    requires forall i :: 0 <= i < |s| ==> keep1(s[i]) == keep2(s[i])
    ensures Filter(s, keep1) == Filter(s, keep2)
  {
    if s != [] {
      assert forall i :: 0 <= i < |s[1..]| ==> s[1..][i] == s[i + 1];
      FilterSameCondition(s[1..], keep1, keep2);
    }
  }

  /** A relation that holds between every earlier and later element still holds after filtering. */
  lemma {:induction false} FilterKeepsPairwise<T(!new)>(s: seq<T>, keep: T -> bool, rel: (T, T) -> bool)
    requires forall i, j :: 0 <= i < j < |s| ==> rel(s[i], s[j])
    ensures forall i, j :: 0 <= i < j < |Filter(s, keep)| ==> rel(Filter(s, keep)[i], Filter(s, keep)[j])
  {
    if s != [] {
      var rest := Filter(s[1..], keep);
      FilterKeepsPairwise(s[1..], keep, rel);
      if keep(s[0]) {
        var r := [s[0]] + rest;
        assert Filter(s, keep) == r;
        forall i, j | 0 <= i < j < |r| ensures rel(r[i], r[j]) {
          if i == 0 {
            assert r[j] == rest[j - 1] && rest[j - 1] in s[1..];
            var k :| 0 <= k < |s[1..]| && s[1..][k] == r[j];
            assert r[0] == s[0] && s[k + 1] == r[j];
            assert rel(s[0], s[k + 1]);
          } else {
            assert r[i] == rest[i - 1] && r[j] == rest[j - 1];
            assert rel(rest[i - 1], rest[j - 1]);
          }
        }
      } else {
        assert Filter(s, keep) == rest;
      }
    }
  }

  // ---------------------------------------------------------------------------
  // map that rewrites the matching elements
  // ---------------------------------------------------------------------------

  /** `s.map(x => matches(x) ? f(x) : x)`. */
  function MapWhere<T>(s: seq<T>, matches: T -> bool, f: T -> T): (r: seq<T>)
    ensures |r| == |s|
    ensures forall i :: 0 <= i < |s| ==> r[i] == if matches(s[i]) then f(s[i]) else s[i]
  {
    if s == [] then []
    else [if matches(s[0]) then f(s[0]) else s[0]] + MapWhere(s[1..], matches, f)
  }

  // ---------------------------------------------------------------------------
  // find
  // ---------------------------------------------------------------------------

  /** `s.find(p)`: the first element satisfying `p`, or none. */
  function Find<T>(s: seq<T>, p: T -> bool): (r: Option<T>)
    ensures r.None? <==> forall i :: 0 <= i < |s| ==> !p(s[i])
    ensures r.Some? ==> exists i :: 0 <= i < |s| && s[i] == r.value && p(s[i]) &&
                                    forall j :: 0 <= j < i ==> !p(s[j])
  {
    if s == [] then None
    else if p(s[0]) then Some(s[0])
    else
      var r := Find(s[1..], p);
      assert forall i :: 1 <= i < |s| ==> s[i] == s[1..][i - 1];
      if r.Some? then
        ghost var i :| 0 <= i < |s[1..]| && s[1..][i] == r.value && p(s[1..][i]) &&
                       forall j :: 0 <= j < i ==> !p(s[1..][j]);
        assert s[i + 1] == r.value && forall j :: 0 <= j < i + 1 ==> !p(s[j]);
        r
      else r
  }

  // ---------------------------------------------------------------------------
  // rearrangement by a permutation of the indices
  // ---------------------------------------------------------------------------

  /** `order` lists every index below `n` exactly once. */
  predicate IsPermutation(order: seq<nat>, n: nat) {
    && |order| == n
    && (forall k :: 0 <= k < n ==> order[k] < n)
    && (forall j, k :: 0 <= j < k < n ==> order[j] != order[k])
    && (forall i :: 0 <= i < n ==> i in order)
  }

  /** The sequence whose `k`-th element is `s[order[k]]`. */
  function Permute<T>(s: seq<T>, order: seq<nat>): (r: seq<T>)
    requires forall k :: 0 <= k < |order| ==> order[k] < |s|
    ensures |r| == |order|
    ensures forall k :: 0 <= k < |order| ==> r[k] == s[order[k]]
  {
    seq(|order|, k requires 0 <= k < |order| => s[order[k]])
  }

  /** Dropping the position that holds the largest index leaves a permutation of the smaller range. */
  lemma DropLargest(order: seq<nat>, n: nat, j: nat)
    requires IsPermutation(order, n + 1) && j < n + 1 && order[j] == n
    ensures IsPermutation(order[..j] + order[j + 1..], n)
  {
    var order' := order[..j] + order[j + 1..];
    forall k | 0 <= k < n ensures order'[k] < n {
      if k < j {
        assert order'[k] == order[k] && order[k] != order[j];
      } else {
        assert order'[k] == order[k + 1] && order[k + 1] != order[j];
      }
    }
    forall i | 0 <= i < n ensures i in order' {
      assert i in order;
      var p :| 0 <= p < |order| && order[p] == i;
      if p < j { assert order'[p] == i; } else { assert p != j && order'[p - 1] == i; }
    }
    forall a, b | 0 <= a < b < n ensures order'[a] != order'[b] {
      var a' := if a < j then a else a + 1;
      var b' := if b < j then b else b + 1;
      assert order'[a] == order[a'] && order'[b] == order[b'] && a' < b';
    }
  }

  /** Permuting `s + [x]` puts `x` where the largest index sits and permutes `s` around it. */
  lemma PermuteSplit<T>(s: seq<T>, x: T, order: seq<nat>, j: nat)
    requires IsPermutation(order, |s| + 1) && j < |s| + 1 && order[j] == |s|
    ensures IsPermutation(order[..j] + order[j + 1..], |s|)
    ensures var p' := Permute(s, order[..j] + order[j + 1..]);
            Permute(s + [x], order) == p'[..j] + [x] + p'[j..]
  {
    DropLargest(order, |s|, j);
    var order' := order[..j] + order[j + 1..];
    var p := Permute(s + [x], order);
    var p' := Permute(s, order');
    forall k | 0 <= k < |p| ensures p[k] == (p'[..j] + [x] + p'[j..])[k] {
      if k < j { assert order[k] == order'[k]; }
      else if k > j { assert order[k] == order'[k - 1]; }
    }
  }

  /** Rearranging by a permutation neither adds nor loses an element. */
  lemma {:induction false} PermutePreservesMultiset<T>(s: seq<T>, order: seq<nat>)
    requires IsPermutation(order, |s|)
    ensures multiset(Permute(s, order)) == multiset(s)
  {
    if s != [] {
      var m := |s| - 1;
      assert m in order;
      var j :| 0 <= j < |order| && order[j] == m;
      var s', x := s[..m], s[m];
      assert s == s' + [x];
      PermuteSplit(s', x, order, j);
      var order' := order[..j] + order[j + 1..];
      PermutePreservesMultiset(s', order');
      InsertKeepsMultiset(Permute(s', order'), x, j);
    }
  }

  /** Inserting `x` at position `j` adds exactly one `x` to the multiset. */
  lemma InsertKeepsMultiset<T>(p: seq<T>, x: T, j: nat)
    requires j <= |p|
    ensures multiset(p[..j] + [x] + p[j..]) == multiset(p) + multiset{x}
  {
    assert p == p[..j] + p[j..];
  }
}

=== FILE: sidebar.dfy ===
/**
  The dashboard's sidebar (`frontend/src/components/Sidebar.tsx`). On every
  render it sorts the very array of playlists it is handed, newest update
  first, keeps the first five as "Recent", counts the categories, and lists
  the first five or ten playlists depending on whether it is collapsed,
  highlighting the selected one.
 */
module Sidebar {
  import opened Wrappers
  import opened Types
  import PlaylistStore

  /** Newest update first. */
  ghost predicate NewestFirst(s: seq<Playlist>) {
    forall p, q :: 0 <= p < q < |s| ==> s[p].updatedAt >= s[q].updatedAt
  }

  /**
    The state inside one insertion step: apart from position `j`, the prefix
    up to `i` is newest first, and the element at `j` is strictly newer than
    everything after it up to `i`.
   */
  ghost predicate SortedAround(s: seq<Playlist>, i: nat, j: nat) {
    && j <= i < |s|
    && (forall p, q :: 0 <= p < q <= i && p != j && q != j ==> s[p].updatedAt >= s[q].updatedAt)
    && (forall q :: j < q <= i ==> s[j].updatedAt > s[q].updatedAt)
  }

  /** Swapping the element at `j` with its strictly older left neighbour moves the gap one place left. */
  lemma SwapStep(s: seq<Playlist>, i: nat, j: nat)
    requires SortedAround(s, i, j) && 0 < j && s[j - 1].updatedAt < s[j].updatedAt
    ensures SortedAround(s[j - 1 := s[j]][j := s[j - 1]], i, j - 1)
    ensures multiset(s[j - 1 := s[j]][j := s[j - 1]]) == multiset(s)
  {
    var t := s[j - 1 := s[j]][j := s[j - 1]];
    forall p, q | 0 <= p < q <= i && p != j - 1 && q != j - 1 ensures t[p].updatedAt >= t[q].updatedAt {
      if q == j {
        assert t[q] == s[j - 1];
        if p < j - 1 { assert s[p].updatedAt >= s[j - 1].updatedAt; }
      } else if p == j {
        assert t[p] == s[j - 1] && s[j - 1].updatedAt < s[j].updatedAt;
        assert s[j].updatedAt > s[q].updatedAt;
      }
    }
    forall q | j - 1 < q <= i ensures t[j - 1].updatedAt > t[q].updatedAt {
      if q > j { assert s[j].updatedAt > s[q].updatedAt; }
    }
  }

  /** Once the element at `j` has no strictly older left neighbour, the prefix up to `i` is newest first. */
  lemma StepDone(s: seq<Playlist>, i: nat, j: nat)
    requires SortedAround(s, i, j) && (j == 0 || s[j - 1].updatedAt >= s[j].updatedAt)
    ensures NewestFirst(s[..i + 1])
  {
    forall p, q | 0 <= p < q <= i ensures s[p].updatedAt >= s[q].updatedAt {
      if q == j && p < j - 1 {
        assert s[p].updatedAt >= s[j - 1].updatedAt;
      } else if p == j - 1 && q > j {
        assert s[j].updatedAt > s[q].updatedAt;
      }
    }
  }

  /** `a[..i]` newest first, then insert `a[i]` into it by swapping it towards the front. */
  method InsertAt(a: array<Playlist>, i: nat)
    requires i < a.Length && NewestFirst(a[..i])
    modifies a
    ensures NewestFirst(a[..i + 1])
    ensures multiset(a[..]) == multiset(old(a[..]))
    ensures a[i + 1..] == old(a[i + 1..])
  {
    var j: nat := i;
    assert SortedAround(a[..], i, j) by {
      forall p, q | 0 <= p < q <= i && p != j && q != j ensures a[p].updatedAt >= a[q].updatedAt {
        assert a[..i][p] == a[p] && a[..i][q] == a[q];
      }
    }
    while j > 0 && a[j - 1].updatedAt < a[j].updatedAt
      invariant SortedAround(a[..], i, j)
      invariant multiset(a[..]) == multiset(old(a[..]))
      invariant a[i + 1..] == old(a[i + 1..])
    {
      SwapStep(a[..], i, j);
      a[j - 1], a[j] := a[j], a[j - 1];
      j := j - 1;
    }
    StepDone(a[..], i, j);
  }

  /**
    `playlists.sort((a, b) => b.updatedAt - a.updatedAt)`, which reorders the
    array in place: afterwards it holds the same playlists, newest update first.
    Written as an insertion sort.
   */
  method SortNewestFirst(a: array<Playlist>)
    modifies a
    ensures NewestFirst(a[..])
    ensures multiset(a[..]) == multiset(old(a[..]))
  {
    var i := 0;
    while i < a.Length
      invariant 0 <= i <= a.Length
      invariant NewestFirst(a[..i])
      invariant multiset(a[..]) == multiset(old(a[..]))
    {
      InsertAt(a, i);
      i := i + 1;
    }
    assert a[..] == a[..a.Length];
  }

  function Min(x: nat, y: nat): nat {
    if x <= y then x else y
  }

  /** `.slice(0, k)`: the first `k` elements, or all of them when there are fewer. */
  function Take(s: seq<Playlist>, k: nat): (r: seq<Playlist>)
    ensures |r| == Min(k, |s|) && r == s[..|r|]
  {
    if k <= |s| then s[..k] else s
  }

  /** `recentPlaylists` over the sorted list: the five most recently updated. */
  function Recent(sorted: seq<Playlist>): (r: seq<Playlist>)
    ensures |r| == Min(5, |sorted|)
    ensures r == sorted[..|r|]
    ensures NewestFirst(sorted) ==> NewestFirst(r)
    ensures NewestFirst(sorted) ==> forall p, q :: 0 <= p < |r| && |r| <= q < |sorted| ==>
              r[p].updatedAt >= sorted[q].updatedAt
  {
    Take(sorted, 5)
  }

  /** The counts shown beside "All Playlists" and "Recent". */
  function CategoryCounts(playlists: seq<Playlist>, recent: seq<Playlist>): (counts: (nat, nat))
    ensures counts.0 == |playlists|
    ensures recent == Recent(playlists) ==> counts.1 == Min(5, |playlists|)
  {
    (|playlists|, |recent|)
  }

  /** The playlists listed: five when collapsed, ten otherwise. */
  function Visible(sorted: seq<Playlist>, collapsed: bool): (r: seq<Playlist>)
    ensures |r| == Min(if collapsed then 5 else 10, |sorted|)
    ensures r == sorted[..|r|]
  {
    Take(sorted, if collapsed then 5 else 10)
  }

  /** A row is highlighted exactly when its id is the selected id; with no selection nothing is. */
  function Highlighted(selectedId: Option<string>, p: Playlist): (b: bool)
    ensures b <==> selectedId.Some? && selectedId.value == p.id
  {
    selectedId == Some(p.id)
  }

  /**
    With distinct ids, the highlighted row is the playlist the shell's
    `selectedPlaylist` finds, and it is the only highlighted row.
   */
  lemma HighlightedIsSelected(ps: seq<Playlist>, selectedId: Option<string>, i: nat)
    requires PlaylistStore.UniqueIds(ps) && i < |ps|
    ensures Highlighted(selectedId, ps[i]) <==> PlaylistStore.Selected(ps, selectedId) == Some(ps[i])
    ensures Highlighted(selectedId, ps[i]) ==> forall j :: 0 <= j < |ps| && j != i ==> !Highlighted(selectedId, ps[j])
  {
  }

  /**
    One render: sorts the handed array in place and returns the recent
    playlists, the two counts and the rows listed.
   */
  method Render(playlists: array<Playlist>, collapsed: bool)
    returns (recent: seq<Playlist>, counts: (nat, nat), rows: seq<Playlist>)
    modifies playlists
    ensures NewestFirst(playlists[..]) && multiset(playlists[..]) == multiset(old(playlists[..]))
    ensures recent == Recent(playlists[..]) && |recent| == Min(5, playlists.Length)
    ensures counts == (playlists.Length, |recent|)
    ensures rows == Visible(playlists[..], collapsed)
  {
    SortNewestFirst(playlists);
    recent := Recent(playlists[..]);
    counts := CategoryCounts(playlists[..], recent);
    rows := Visible(playlists[..], collapsed);
  }
}

=== FILE: text.dfy ===
/**
  The string primitives the components rely on: JavaScript's `String.prototype.trim`,
  an ASCII stand-in for `toLowerCase`, `includes`, `padStart(2, '0')`,
  the decimal rendering of a non-negative integer (`toString()`) and its inverse,
  and splitting on one separator character (JavaScript's and Python's `split`).
 */
module Text {

  // ---------------------------------------------------------------------------
  // trim
  // ---------------------------------------------------------------------------

  /** The characters `trim()` removes: ECMAScript WhiteSpace and LineTerminator. */
  predicate IsWhitespace(c: char) {
    || c == '\t' || c == '\n' || c == '\U{000B}' || c == '\U{000C}' || c == '\r' || c == ' '
    || c == '\U{00A0}' || c == '\U{1680}' || ('\U{2000}' <= c <= '\U{200A}')
    || c == '\U{2028}' || c == '\U{2029}' || c == '\U{202F}' || c == '\U{205F}'
    || c == '\U{3000}' || c == '\U{FEFF}'
  }

  /** Number of whitespace characters at the front of `s`. */
  function LeadingSpace(s: string): (k: nat)
    ensures k <= |s|
    ensures forall i :: 0 <= i < k ==> IsWhitespace(s[i])
    ensures k == |s| || !IsWhitespace(s[k])
  {
    if s == [] || !IsWhitespace(s[0]) then 0 else 1 + LeadingSpace(s[1..])
  }

  /** Number of whitespace characters at the back of `s`. */
  function TrailingSpace(s: string): (k: nat)
    ensures k <= |s|
    ensures forall i :: |s| - k <= i < |s| ==> IsWhitespace(s[i])
    ensures k == |s| || !IsWhitespace(s[|s| - k - 1])
  {
    if s == [] || !IsWhitespace(s[|s| - 1]) then 0 else 1 + TrailingSpace(s[..|s| - 1])
  }

  /** `s.trim()`. */
  function Trim(s: string): string {
    var a := LeadingSpace(s);
    var rest := s[a..];
    rest[..|rest| - TrailingSpace(rest)]
  }

  /** `trim()` cuts a slice out of `s`: only whitespace goes, and the slice neither starts nor ends with whitespace. */
  lemma TrimSlice(s: string)
    ensures exists a, b :: 0 <= a <= b <= |s| && Trim(s) == s[a..b] &&
                           (forall i :: 0 <= i < a || b <= i < |s| ==> IsWhitespace(s[i]))
    ensures Trim(s) != [] ==> !IsWhitespace(Trim(s)[0]) && !IsWhitespace(Trim(s)[|Trim(s)| - 1])
  {
    var a := LeadingSpace(s);
    var rest := s[a..];
    var b := a + |rest| - TrailingSpace(rest);
    assert Trim(s) == s[a..b];
    forall i | b <= i < |s| ensures IsWhitespace(s[i]) {
      assert s[i] == rest[i - a];
    }
  }

  /** A string trims to nothing exactly when it is all whitespace. */
  lemma TrimEmpty(s: string)
    ensures Trim(s) == [] <==> forall i :: 0 <= i < |s| ==> IsWhitespace(s[i])
  {
    var a := LeadingSpace(s);
    if a < |s| {
      var rest := s[a..];
      assert !IsWhitespace(rest[0]);
      assert TrailingSpace(rest) < |rest|;
    }
  }

  /** Trimming twice is trimming once. */
  lemma TrimIdempotent(s: string)
    ensures Trim(Trim(s)) == Trim(s)
  {
    var t := Trim(s);
    TrimSlice(s);
    if t != [] {
      assert LeadingSpace(t) == 0;
      assert TrailingSpace(t) == 0;
      assert t[0..] == t;
    }
  }

  // ---------------------------------------------------------------------------
  // case folding and substring search
  // ---------------------------------------------------------------------------

  /** `toLowerCase` restricted to ASCII letters. */
  function LowerChar(c: char): char {
    if 'A' <= c <= 'Z' then (c as int - 'A' as int + 'a' as int) as char else c
  }

  function Lower(s: string): (r: string)
    ensures |r| == |s| && forall i :: 0 <= i < |s| ==> r[i] == LowerChar(s[i])
  {
    seq(|s|, i requires 0 <= i < |s| => LowerChar(s[i]))
  }

  /** `needle` occurs in `hay` starting at index `i`. */
  predicate OccursAt(needle: string, hay: string, i: nat) {
    i + |needle| <= |hay| && hay[i..i + |needle|] == needle
  }

  /** `hay.includes(needle)`, searched from the front. */
  function Includes(hay: string, needle: string): (b: bool)
    ensures b <==> exists i :: 0 <= i <= |hay| && OccursAt(needle, hay, i)
  {
    if OccursAt(needle, hay, 0) then true
    else if hay == [] then false
    else
      OccursAtShift(needle, hay);
      Includes(hay[1..], needle)
  }

  /** An occurrence in `hay` is one at the front or one in the tail of `hay`. */
  lemma OccursAtShift(needle: string, hay: string)
    requires hay != []
    ensures (exists i :: 0 <= i <= |hay| && OccursAt(needle, hay, i)) <==>
            OccursAt(needle, hay, 0) || exists j :: 0 <= j <= |hay[1..]| && OccursAt(needle, hay[1..], j)
  {
    if i :| 0 <= i <= |hay| && OccursAt(needle, hay, i) {
      if i > 0 {
        assert hay[1..][i - 1..i - 1 + |needle|] == hay[i..i + |needle|];
        assert OccursAt(needle, hay[1..], i - 1);
      }
    }
    if j :| 0 <= j <= |hay[1..]| && OccursAt(needle, hay[1..], j) {
      assert hay[1..][j..j + |needle|] == hay[j + 1..j + 1 + |needle|];
      assert OccursAt(needle, hay, j + 1);
    }
  }

  // ---------------------------------------------------------------------------
  // decimal numbers
  // ---------------------------------------------------------------------------

  predicate IsDigit(c: char) { '0' <= c <= '9' }

  predicate AllDigits(s: string) {
    forall i :: 0 <= i < |s| ==> IsDigit(s[i])
  }

  function DigitChar(d: nat): (c: char)
    requires d < 10
    ensures IsDigit(c)
  {
    ('0' as int + d) as char
  }

  function DigitValue(c: char): nat
    requires IsDigit(c)
  {
    c as int - '0' as int
  }

  /** `n.toString()` (Python `str(n)`) for a non-negative integer. */
  function NatToString(n: nat): (r: string)
    ensures |r| >= 1 && forall i :: 0 <= i < |r| ==> IsDigit(r[i])
    ensures r[0] == '0' ==> n == 0
  {
    if n < 10 then [DigitChar(n)] else NatToString(n / 10) + [DigitChar(n % 10)]
  }

  /** `k.toString()` for any integer: a minus sign before the digits of a negative number. */
  function IntToString(k: int): (r: string)
    ensures |r| >= 1
    ensures k >= 0 ==> r == NatToString(k)
    ensures k < 0 ==> r[0] == '-' && r[1..] == NatToString(-k)
    ensures ':' !in r
  {
    if k >= 0 then NatToString(k) else "-" + NatToString(-k)
  }

  /** The value of a string of decimal digits, read most significant digit first. */
  function DigitsValue(s: string): nat
    requires forall i :: 0 <= i < |s| ==> IsDigit(s[i])
  {
    if s == [] then 0 else 10 * DigitsValue(s[..|s| - 1]) + DigitValue(s[|s| - 1])
  }

  /** Reading back the decimal rendering gives the number. */
  lemma {:induction false} NatToStringRoundTrip(n: nat)
    ensures DigitsValue(NatToString(n)) == n
  {
    if n >= 10 {
      var r := NatToString(n);
      assert r[..|r| - 1] == NatToString(n / 10);
      NatToStringRoundTrip(n / 10);
    }
  }

  /** A leading zero does not change the value of a digit string. */
  lemma {:induction false} LeadingZero(s: string)
    requires forall i :: 0 <= i < |s| ==> IsDigit(s[i])
    ensures DigitsValue("0" + s) == DigitsValue(s)
  {
    if s != [] {
      assert ("0" + s)[..|s|] == "0" + s[..|s| - 1];
      LeadingZero(s[..|s| - 1]);
    }
  }

  /** `s.padStart(2, '0')`: zeros in front up to length 2; a longer string is kept whole. */
  function PadStart2(s: string): (r: string)
    ensures |r| == if |s| >= 2 then |s| else 2
    ensures r[|r| - |s|..] == s && forall i :: 0 <= i < |r| - |s| ==> r[i] == '0'
  {
    if |s| >= 2 then s else seq(2 - |s|, _ => '0') + s
  }

  /** Padding a digit string keeps its value. */
  lemma PadStart2Value(s: string)
    requires forall i :: 0 <= i < |s| ==> IsDigit(s[i])
    ensures forall i :: 0 <= i < |PadStart2(s)| ==> IsDigit(PadStart2(s)[i])
    ensures DigitsValue(PadStart2(s)) == DigitsValue(s)
  {
    if |s| == 1 {
      LeadingZero(s);
    } else if |s| == 0 {
      assert PadStart2(s) == "0" + "0";
      LeadingZero("0");
      LeadingZero("");
    }
  }

  // ---------------------------------------------------------------------------
  // split on one character
  // ---------------------------------------------------------------------------

  /** `s.split(sep)` for a one-character separator: the pieces between separators, empty ones included. */
  function Split(s: string, sep: char): (r: seq<string>)
    ensures |r| >= 1
    ensures forall k :: 0 <= k < |r| ==> sep !in r[k]
    ensures sep !in s ==> r == [s]
  {
    if sep !in s then [s]
    else
      var i := FirstIndex(s, sep);
      [s[..i]] + Split(s[i + 1..], sep)
  }

  /** The position of the first `c` in `s`. */
  function FirstIndex(s: string, c: char): (i: nat)
    requires c in s
    ensures i < |s| && s[i] == c && c !in s[..i]
  {
    if s[0] == c then 0 else 1 + FirstIndex(s[1..], c)
  }

  /** Splitting `a + [sep] + b`, where `a` holds no separator, yields `a` followed by the pieces of `b`. */
  lemma SplitCons(a: string, sep: char, b: string)
    requires sep !in a
    ensures Split(a + [sep] + b, sep) == [a] + Split(b, sep)
  {
    var s := a + [sep] + b;
    assert s[|a|] == sep;
    var i := FirstIndex(s, sep);
    assert s[..i] == a && s[i + 1..] == b;
  }

  /** `sep.join(pieces)` for a one-character separator and at least one piece. */
  function Join(pieces: seq<string>, sep: char): string
    requires |pieces| >= 1
  {
    if |pieces| == 1 then pieces[0] else pieces[0] + [sep] + Join(pieces[1..], sep)
  }

  /** Joining the pieces of a split with the separator gives back the string. */
  lemma {:induction false} JoinSplit(s: string, sep: char)
    ensures Join(Split(s, sep), sep) == s
    decreases |s|
  {
    if sep in s {
      var i := FirstIndex(s, sep);
      JoinSplit(s[i + 1..], sep);
      assert s == s[..i] + [sep] + s[i + 1..];
    }
  }

  /** Splitting the join of separator-free pieces gives back the pieces. */
  lemma {:induction false} SplitJoin(pieces: seq<string>, sep: char)
    requires |pieces| >= 1 && forall k :: 0 <= k < |pieces| ==> sep !in pieces[k]
    ensures Split(Join(pieces, sep), sep) == pieces
  {
    if |pieces| > 1 {
      var rest := Join(pieces[1..], sep);
      assert Join(pieces, sep) == pieces[0] + [sep] + rest;
      SplitJoin(pieces[1..], sep);
      SplitCons(pieces[0], sep, rest);
      assert pieces == [pieces[0]] + pieces[1..];
    }
  }
}

=== FILE: types.dfy ===
/**
  The records the client stores: a video in a playlist and a playlist.
  Timestamps are the instants the source writes as ISO-8601 strings
  (`new Date().toISOString()`), here as a number of milliseconds.
 */
module Types {
  import opened Wrappers

  type Timestamp = nat

  /** `VideoItem`: `id` is the record's own id, `videoId` the YouTube id it plays. */
  datatype Video = Video(
    id: string,
    title: string,
    thumbnail: string,
    videoId: string,
    duration: Option<string>,
    addedAt: Timestamp)

  datatype Playlist = Playlist(
    id: string,
    name: string,
    videos: seq<Video>,
    createdAt: Timestamp,
    updatedAt: Timestamp)

  /** The ids of a list of playlists, in list order. */
  function Ids(ps: seq<Playlist>): (r: seq<string>)
    ensures |r| == |ps| && forall i :: 0 <= i < |ps| ==> r[i] == ps[i].id
  {
    seq(|ps|, i requires 0 <= i < |ps| => ps[i].id)
  }
}

=== FILE: wrappers.dfy ===
/** JavaScript's `T | null` (and `T | undefined`) as an explicit option. */
module Wrappers {

  datatype Option<T> = None | Some(value: T)

}

=== FILE: youtube_url.dfy ===
/**
  `src/utils/youtube.ts`: pulling a video id out of a YouTube URL, and the
  thumbnail URL and placeholder record built from an id.

  The two regular expressions are written out as the searches they perform.
  The first, `(?:youtube\.com\/watch\?v=|youtu\.be\/|youtube\.com\/embed\/)([^&\n?#]+)`,
  matches at the leftmost position where one of the three markers is followed
  by at least one allowed character, and captures the longest run of allowed
  characters there. The second, `youtube\.com\/watch\?.*v=([^&\n?#]+)`, matches
  at the leftmost `youtube.com/watch?` that is followed, on the same line, by a
  `v=` and an allowed character; the greedy `.*` makes it take the last such
  `v=` on that line.
 */
module YouTubeUrl {
  import opened Wrappers
  import Text

  /** The characters `[^&\n?#]` admits. */
  predicate Allowed(c: char) {
    c != '&' && c != '\n' && c != '?' && c != '#'
  }

  /** The characters `.` does not match. */
  predicate LineTerminator(c: char) {
    c == '\n' || c == '\r' || c == '\U{2028}' || c == '\U{2029}'
  }

  const WatchMarker := "youtube.com/watch?v="
  const ShortMarker := "youtu.be/"
  const EmbedMarker := "youtube.com/embed/"
  const WatchQuery := "youtube.com/watch?"
  const IdKey := "v="

  /** The length of the run of allowed characters starting at `k`. */
  function RunLength(s: string, k: nat): (n: nat)
    requires k <= |s|
    ensures k + n <= |s|
    ensures forall i :: k <= i < k + n ==> Allowed(s[i])
    ensures k + n == |s| || !Allowed(s[k + n])
    decreases |s| - k
  {
    if k == |s| || !Allowed(s[k]) then 0 else 1 + RunLength(s, k + 1)
  }

  /** `([^&\n?#]+)` at `k`: the longest run of allowed characters there. */
  function Token(s: string, k: nat): string
    requires k <= |s|
  {
    s[k..k + RunLength(s, k)]
  }

  /** The marker `m` occurs at `i` and an allowed character follows it. */
  predicate MarkerThen(url: string, i: nat, m: string) {
    Text.OccursAt(m, url, i) && i + |m| < |url| && Allowed(url[i + |m|])
  }

  /** The first expression matches at `i`. */
  predicate MarkerMatchAt(url: string, i: nat) {
    MarkerThen(url, i, WatchMarker) || MarkerThen(url, i, ShortMarker) || MarkerThen(url, i, EmbedMarker)
  }

  /** Where the capture starts when the first expression matches at `i`; the alternatives are tried in order. */
  function MarkerEnd(url: string, i: nat): (k: nat)
    requires MarkerMatchAt(url, i)
    ensures 0 < k < |url| && Allowed(url[k])
  {
    if MarkerThen(url, i, WatchMarker) then i + |WatchMarker|
    else if MarkerThen(url, i, ShortMarker) then i + |ShortMarker|
    else i + |EmbedMarker|
  }

  /** The first expression, tried at `i` and the positions after it. */
  function MarkerSearch(url: string, i: nat): (r: Option<string>)
    requires i <= |url|
    ensures r.None? <==> forall j :: i <= j <= |url| ==> !MarkerMatchAt(url, j)
    ensures r.Some? ==> exists j :: i <= j <= |url| && MarkerMatchAt(url, j) &&
                                    (forall j' :: i <= j' < j ==> !MarkerMatchAt(url, j')) &&
                                    r.value == Token(url, MarkerEnd(url, j))
    decreases |url| - i
  {
    if MarkerMatchAt(url, i) then Some(Token(url, MarkerEnd(url, i)))
    else if i == |url| then None
    else MarkerSearch(url, i + 1)
  }

  /** `v=` at `j`, with an allowed character after it, reached from the query at `i` without crossing a line end. */
  predicate KeyAt(url: string, i: nat, j: nat) {
    && i + |WatchQuery| <= j && j + 2 < |url|
    && SameLine(url, i + |WatchQuery|, j)
    && Text.OccursAt(IdKey, url, j) && Allowed(url[j + 2])
  }

  /** No line end between `from` and `to`, so `.*` can span that stretch. */
  predicate SameLine(url: string, from: nat, to: nat)
    requires to <= |url|
  {
    forall k :: from <= k < to ==> !LineTerminator(url[k])
  }

  /** The second expression matches at `i`. */
  predicate QueryMatchAt(url: string, i: nat) {
    Text.OccursAt(WatchQuery, url, i) && exists j :: i <= j < |url| && KeyAt(url, i, j)
  }

  /** The first line end at or after `k`, or the end of the text. */
  function LineEnd(url: string, k: nat): (e: nat)
    requires k <= |url|
    ensures k <= e <= |url| && (e == |url| || LineTerminator(url[e]))
    ensures forall m :: k <= m < e ==> !LineTerminator(url[m])
    decreases |url| - k
  {
    if k == |url| || LineTerminator(url[k]) then k else LineEnd(url, k + 1)
  }

  /** The last `v=` position below `hi` that the query at `i` can reach: what the greedy `.*` settles on. */
  function LastKey(url: string, i: nat, hi: nat): (r: Option<nat>)
    requires i + |WatchQuery| <= |url|
    requires i + |WatchQuery| <= hi <= LineEnd(url, i + |WatchQuery|)
    ensures r.None? <==> forall j :: i + |WatchQuery| <= j < hi ==> !KeyAt(url, i, j)
    ensures r.Some? ==> i + |WatchQuery| <= r.value < hi && KeyAt(url, i, r.value) &&
                        forall j :: r.value < j < hi ==> !KeyAt(url, i, j)
    decreases hi
  {
    if hi == i + |WatchQuery| then None
    else
      var j := hi - 1;
      if Text.OccursAt(IdKey, url, j) && j + 2 < |url| && Allowed(url[j + 2]) then
        assert SameLine(url, i + |WatchQuery|, j);
        assert KeyAt(url, i, j);
        Some(j)
      else
        assert !KeyAt(url, i, j);
        LastKey(url, i, j)
  }

  /** No `v=` at or beyond the first line end can be reached. */
  lemma KeyBeforeLineEnd(url: string, i: nat, j: nat)
    requires i + |WatchQuery| <= |url| && KeyAt(url, i, j)
    ensures j < LineEnd(url, i + |WatchQuery|)
  {
  }

  /** When the second expression matches at `i`, the greedy search finds a `v=` on that line. */
  lemma QueryMatchHasKey(url: string, i: nat)
    requires QueryMatchAt(url, i)
    ensures i + |WatchQuery| <= |url|
    ensures LastKey(url, i, LineEnd(url, i + |WatchQuery|)).Some?
  {
    var j :| i <= j < |url| && KeyAt(url, i, j);
    KeyBeforeLineEnd(url, i, j);
  }

  /** Where the second expression's capture starts when it matches at `i`. */
  function QueryKeyEnd(url: string, i: nat): (k: nat)
    requires QueryMatchAt(url, i)
    ensures 2 <= k < |url| && Allowed(url[k])
  {
    QueryMatchHasKey(url, i);
    LastKey(url, i, LineEnd(url, i + |WatchQuery|)).value + 2
  }

  /** The second expression, tried at `i` and the positions after it. */
  function QuerySearch(url: string, i: nat): (r: Option<string>)
    requires i <= |url|
    ensures r.None? <==> forall j :: i <= j <= |url| ==> !QueryMatchAt(url, j)
    ensures r.Some? ==> exists j :: i <= j <= |url| && QueryMatchAt(url, j) &&
                                    (forall j' :: i <= j' < j ==> !QueryMatchAt(url, j')) &&
                                    r.value == Token(url, QueryKeyEnd(url, j))
    decreases |url| - i
  {
    if QueryMatchAt(url, i) then Some(Token(url, QueryKeyEnd(url, i)))
    else if i == |url| then None
    else QuerySearch(url, i + 1)
  }

  /** The two expressions, in the order the source tries them. */
  datatype Pattern = MarkerPattern | QueryPattern

  /** `url.match(pattern)`'s first group. */
  function Match(p: Pattern, url: string): Option<string> {
    match p
    case MarkerPattern => MarkerSearch(url, 0)
    case QueryPattern => QuerySearch(url, 0)
  }

  /** `t` sits at `k` in `s` and the run of allowed characters cannot be extended past it. */
  predicate RunAt(s: string, k: nat, t: string) {
    k + |t| <= |s| && s[k..k + |t|] == t && (k + |t| == |s| || !Allowed(s[k + |t|]))
  }

  /** The capture at `k` is a maximal run: non-empty when an allowed character is there, free of `&`, `?`, `#` and newlines, and not extendable. */
  lemma TokenShape(s: string, k: nat)
    requires k < |s| && Allowed(s[k])
    ensures var t := Token(s, k);
            |t| >= 1 && (forall c :: c in t ==> Allowed(c)) &&
            RunAt(s, k, t)
  {
    var t := Token(s, k);
    forall c | c in t ensures Allowed(c) {
      var m :| 0 <= m < |t| && t[m] == c;
      assert t[m] == s[k + m];
    }
  }

  /** The run found by the first expression. */
  lemma MarkerResultShape(url: string)
    requires MarkerSearch(url, 0).Some?
    ensures IsCapture(url, MarkerSearch(url, 0).value)
  {
    var j :| 0 <= j <= |url| && MarkerMatchAt(url, j) && MarkerSearch(url, 0).value == Token(url, MarkerEnd(url, j));
    var k := MarkerEnd(url, j);
    TokenShape(url, k);
    assert RunAt(url, k, Token(url, k));
  }

  /** The run found by the second expression. */
  lemma QueryResultShape(url: string)
    requires QuerySearch(url, 0).Some?
    ensures IsCapture(url, QuerySearch(url, 0).value)
  {
    var i :| 0 <= i <= |url| && QueryMatchAt(url, i) && QuerySearch(url, 0).value == Token(url, QueryKeyEnd(url, i));
    var k := QueryKeyEnd(url, i);
    TokenShape(url, k);
    assert RunAt(url, k, Token(url, k));
  }

  /** `t` is non-empty, made of allowed characters, and a maximal run of them somewhere after the start of `url`. */
  predicate IsCapture(url: string, t: string) {
    && |t| >= 1 && (forall c :: c in t ==> Allowed(c))
    && exists k :: 0 < k < |url| && RunAt(url, k, t)
  }

  /** The first expression matches somewhere in `url`. */
  predicate MarkerMatches(url: string) {
    exists i :: 0 <= i <= |url| && MarkerMatchAt(url, i)
  }

  /** The second expression matches somewhere in `url`. */
  predicate QueryMatches(url: string) {
    exists i :: 0 <= i <= |url| && QueryMatchAt(url, i)
  }

  /** Each expression fails exactly when it matches nowhere. */
  lemma MatchFails(url: string)
    ensures Match(MarkerPattern, url).None? <==> !MarkerMatches(url)
    ensures Match(QueryPattern, url).None? <==> !QueryMatches(url)
  {
  }

  /** The id the two expressions, tried in order, extract from `url`. */
  function Extracted(url: string): (r: Option<string>)
    ensures r.None? <==> !MarkerMatches(url) && !QueryMatches(url)
    ensures r.Some? ==> IsCapture(url, r.value)
  {
    MatchFails(url);
    if Match(MarkerPattern, url).Some? then
      MarkerResultShape(url);
      Match(MarkerPattern, url)
    else
      if Match(QueryPattern, url).Some? then QueryResultShape(url); Match(QueryPattern, url)
      else None
  }

  /**
    `extractYouTubeVideoId`: the first expression's capture if it matches,
    else the second's, else `None`.
   */
  method ExtractVideoId(url: string) returns (r: Option<string>)
    ensures r == Extracted(url)
    ensures MarkerMatches(url) ==> r == Match(MarkerPattern, url)
    ensures !MarkerMatches(url) ==> r == Match(QueryPattern, url)
  {
    MatchFails(url);
    var patterns := [MarkerPattern, QueryPattern];
    for n := 0 to |patterns|
      invariant forall m :: 0 <= m < n ==> Match(patterns[m], url).None?
    {
      var found := Match(patterns[n], url);
      if found.Some? {
        if n == 1 {
          assert Match(patterns[0], url).None? && found == Match(QueryPattern, url);
        }
        return found;
      }
    }
    assert Match(patterns[0], url).None? && Match(patterns[1], url).None?;
    return None;
  }

  /**
    A link that starts with one of the three markers yields the id that
    follows it, up to the first `&`, `?`, `#` or newline: for example
    `youtu.be/ID`, `youtube.com/embed/ID` and `youtube.com/watch?v=ID&list=L`.
   */
  lemma MarkerLinkId(m: string, id: string, rest: string)
    requires m == WatchMarker || m == ShortMarker || m == EmbedMarker
    requires |id| >= 1 && forall c :: c in id ==> Allowed(c)
    requires rest == [] || !Allowed(rest[0])
    ensures Match(MarkerPattern, m + id + rest) == Some(id)
  {
    var url := m + id + rest;
    assert url[..|m|] == m && url[|m|] == id[0];
    assert MarkerThen(url, 0, m);
    if m != WatchMarker {
      assert url[5] != WatchMarker[5] || url[12] != WatchMarker[12];
      assert !MarkerThen(url, 0, WatchMarker);
    }
    if m == EmbedMarker {
      assert url[5] != ShortMarker[5];
      assert !MarkerThen(url, 0, ShortMarker);
    }
    assert MarkerEnd(url, 0) == |m|;
    var n := RunLength(url, |m|);
    forall k | |m| <= k < |m| + |id| ensures Allowed(url[k]) {
      assert url[k] == id[k - |m|] && id[k - |m|] in id;
    }
    assert |m| + |id| == |url| || !Allowed(url[|m| + |id|]);
    assert n == |id|;
    assert Token(url, |m|) == id;
  }

  // ---------------------------------------------------------------------------
  // Thumbnail and placeholder record
  // ---------------------------------------------------------------------------

  const ThumbnailPrefix := "https://img.youtube.com/vi/"
  const ThumbnailSuffix := "/maxresdefault.jpg"

  /** `getYouTubeThumbnail`. */
  function Thumbnail(videoId: string): string {
    ThumbnailPrefix + videoId + ThumbnailSuffix
  }

  /** Reads the id back out of a thumbnail URL. */
  function ThumbnailId(url: string): Option<string> {
    if |url| >= |ThumbnailPrefix| + |ThumbnailSuffix|
       && url[..|ThumbnailPrefix|] == ThumbnailPrefix
       && url[|url| - |ThumbnailSuffix|..] == ThumbnailSuffix
    then Some(url[|ThumbnailPrefix|..|url| - |ThumbnailSuffix|])
    else None
  }

  /** The thumbnail URL determines the id: reading it back gives the id it was built from. */
  lemma ThumbnailRoundTrip(videoId: string)
    ensures ThumbnailId(Thumbnail(videoId)) == Some(videoId)
  {
    var u := Thumbnail(videoId);
    assert u[..|ThumbnailPrefix|] == ThumbnailPrefix;
    assert u[|u| - |ThumbnailSuffix|..] == ThumbnailSuffix;
    assert u[|ThumbnailPrefix|..|u| - |ThumbnailSuffix|] == videoId;
  }

  /** What `fetchVideoInfo` resolves to. */
  datatype VideoInfo = VideoInfo(title: string, thumbnail: string, duration: string)

  /** `videoId.substring(0, 8)`. */
  function First8(s: string): (r: string)
    ensures |r| == if |s| < 8 then |s| else 8
    ensures r == s[..|r|]
  {
    if |s| < 8 then s else s[..8]
  }

  /** `fetchVideoInfo`, without its delay: a placeholder title, the thumbnail URL and duration `"0"`. */
  function FetchVideoInfo(videoId: string): (r: VideoInfo)
    ensures r.thumbnail == Thumbnail(videoId) && r.duration == "0"
    ensures |r.title| == 6 + |First8(videoId)| + 3
    ensures r.title[..6] == "Video " && r.title[|r.title| - 3..] == "..."
    ensures r.title[6..|r.title| - 3] == First8(videoId)
  {
    VideoInfo("Video " + First8(videoId) + "...", Thumbnail(videoId), "0")
  }

  /** The placeholder title shows at most eight characters of the id, so ids sharing them share a title. */
  lemma TitleIgnoresTail(a: string, b: string)
    requires |a| >= 8 && |b| >= 8 && a[..8] == b[..8]
    ensures FetchVideoInfo(a).title == FetchVideoInfo(b).title
    ensures a != b ==> FetchVideoInfo(a).thumbnail != FetchVideoInfo(b).thumbnail
  {
    if a != b && Thumbnail(a) == Thumbnail(b) {
      ThumbnailRoundTrip(a);
      ThumbnailRoundTrip(b);
    }
  }
}
